=== FILE: README.md ===
# L2A bitrate rule (dash.js `L2ARule_BU.js`) in Dafny

This project models the L2A ("Learn2Adapt") adaptive-bitrate rule of the
low-latency dash.js fork, `dash.js/src/streaming/rules/abr/L2ARule_BU.js`,
and proves properties of the model. The rule picks the bitrate level for the
next segment of each media type. It keeps two kinds of state:

- a per-media-type record (`L2AState`) holding:
  - the phase: ONE_BITRATE, STARTUP or STEADY;
  - the BOLA-style buffer parameters `gp` and `Vp`;
  - a *placeholder buffer* added to the real buffer level;
  - segment bookkeeping fed by event-bus notifications;
- module-level optimizer variables (`w`, `prev_w`, `Q1`) shared by all
  media types.

In STEADY, the returned level comes from a drift-plus-penalty step:

1. a gradient step on the weights;
2. Euclidean projection onto the probability simplex;
3. a virtual-queue update;
4. rounding to the rate nearest the weighted rate.

The buffer rule still runs in STEADY. It decides only how much of the excess
buffer is taken from the placeholder and how much becomes a time-to-load delay.

Modules, one per file:

| file | module | what it holds |
|---|---|---|
| `wrappers.dfy` | `Wrappers` | `Option`. NaN-able fields and the `null` parameters are `None`. |
| `vectors.dfy` | `Vectors` | `indexOfMin`, `indexofMax`, `dotmultiplication`, sums, and their characterisations. |
| `simplex.dfy` | `Simplex` | `Euclidean_projection`: the sort, the threshold scan, the clip. Proofs that the result is on the simplex, is the nearest point of the simplex, and fixes points already on it. |
| `parameters.dfy` | `Parameters` | The ladder, utility normalisation and `calculateL2AParameters`. |
| `buffer_rule.dfy` | `BufferRule` | The score, `getQualityFromBufferLevel`, and `max`/`minBufferLevelForQuality`. |
| `media_state.dfy` | `MediaState` | The per-media-type record, its invariant, every writer of the placeholder buffer, the handlers, the STARTUP step, the anti-oscillation clamp and the delay split. |
| `optimizer.dfy` | `Optimizer` | The shared optimizer record and one STEADY optimizer step. |
| `l2a_rule.dfy` | `L2ARule` | The dictionary of states plus the optimizer record, `getMaxIndex`, and the event-bus handlers. |

Collaborators become inputs:

- The current buffer level, the stable buffer time, the average throughput,
  `getQualityForBitrate` and `getTopQualityIndexFor` are fields of a
  `CallContext`.
- `Date.now()` is a `nowMs` argument, and request and finish times are given
  numbers.
- `setTimeToLoadDelay` becomes the `delayMs` of the returned request.
- `Math.log` utilities are an input (`rawUtilities`); their normalisation is
  modelled.

Where the code differs from its own comments or from the simplex-projection
paper it cites at line 457 (arXiv 1101.6081), the model follows the code:

- Ties go to the highest index. Both the buffer-rule scan (`s >= score`) and
  `indexOfMin` (`<=`) keep the later index.
- The move `diff1` that the queue update uses is taken *before* the
  projection. It is computed inside the gradient loop.
- In STEADY the buffer rule's level never reaches the caller. `quality` is
  overwritten by `qualityL2A` before it is returned and stored.
- The gradient step is the one the loop takes, with the normalizer of the
  levels below the top computed on the top rate still in bps (see Findings).
- The shared weights start at 0.33 each, which is not on the simplex. Only
  after the first projection are they on it.

Each rate and throughput is in the unit the code uses at that point:

- the stored ladder is in bps;
- the optimizer converts rates to Mbps and the throughput from kbps to Mbps.

## Model

| member | source | states |
|---|---|---|
| `Vectors.IndexOfMin` | dash.js/src/streaming/rules/abr/L2ARule_BU.js:401-417 | -1 on an empty array; otherwise an index whose entry is no larger than any other, with every later entry strictly larger (the last minimum wins). |
| `Vectors.IndexOfMinUnique` | dash.js/src/streaming/rules/abr/L2ARule_BU.js:401-417 | The characterisation is complete: any index holding a minimum with only larger entries after it is the one `indexOfMin` returns. |
| `Vectors.IndexOfMax` | dash.js/src/streaming/rules/abr/L2ARule_BU.js:419-435 | -1 on an empty array; otherwise an index holding a maximum with every later entry strictly smaller (the last maximum wins). |
| `Vectors.IndexOfMaxUnique` | dash.js/src/streaming/rules/abr/L2ARule_BU.js:419-435 | Any index holding a maximum with only smaller entries after it is the one returned. |
| `Vectors.FirstIndexOfMax` | dash.js/src/streaming/rules/abr/L2ARule_BU.js:105 | The `reduce` with `>` returns a maximal index with every earlier entry strictly smaller (the first maximum). |
| `Vectors.DotOfDistributionWithinRange` | dash.js/src/streaming/rules/abr/L2ARule_BU.js:437-449 | For weights that are non-negative and sum to 1, `dotmultiplication` lies between any lower and upper bound of the values. |
| `Vectors.SumPermutation` | dash.js/src/streaming/rules/abr/L2ARule_BU.js:464 | Reordering the entries does not change their sum, which is why sorting in place before the threshold scan is harmless. |
| `Simplex.SortDescending` | dash.js/src/streaming/rules/abr/L2ARule_BU.js:464 | `arr.sort((a, b) => b - a)`: a permutation of the input, sorted in descending order. |
| `Simplex.Cutoff` | dash.js/src/streaming/rules/abr/L2ARule_BU.js:470-482 | The scan stops at the first count `n` whose running threshold `(s[0]+…+s[n-1]-1)/n` is at least `s[n]`; every earlier threshold is below the next entry. |
| `Simplex.ClipLowersByCut` | dash.js/src/streaming/rules/abr/L2ARule_BU.js:487-489 | After clipping at the threshold no entry is negative, an entry is positive exactly when the input entry is above the threshold, and every positive entry is the input entry lowered by exactly the threshold. |
| `Simplex.ClipKeepsOrder` | dash.js/src/streaming/rules/abr/L2ARule_BU.js:487-489 | Clipping keeps the order of any two entries: a larger input entry never gets a smaller weight. |
| `Simplex.Project` | dash.js/src/streaming/rules/abr/L2ARule_BU.js:451-491 | Same length as the input, and for a non-empty input every entry is non-negative and the entries sum to 1. |
| `Simplex.ProjectionSumsToOne` | dash.js/src/streaming/rules/abr/L2ARule_BU.js:470-489 | The threshold found by the scan (or by the fallback of line 485) makes the clipped vector sum to exactly 1. |
| `Simplex.ProjectionIsNearest` | dash.js/src/streaming/rules/abr/L2ARule_BU.js:451-491 | No point of the simplex is closer (in squared Euclidean distance) to the input than the result: it is the Euclidean projection of the cited algorithm. |
| `Simplex.ProjectionFixesSimplex` | dash.js/src/streaming/rules/abr/L2ARule_BU.js:451-491 | A vector already on the simplex is returned unchanged. |
| `Parameters.Normalize` | dash.js/src/streaming/rules/abr/L2ARule_BU.js:131 | The normalised utilities start at 1 and keep every pairwise difference of the raw utilities. |
| `Parameters.NormalizeKeepsOrder` | dash.js/src/streaming/rules/abr/L2ARule_BU.js:131 | Normalisation keeps strictly increasing utilities strictly increasing. |
| `Parameters.BufferTarget` | dash.js/src/streaming/rules/abr/L2ARule_BU.js:112 | The buffer target is the larger of the stable buffer time and `10 + 2·N`. |
| `Parameters.TopUtility` | dash.js/src/streaming/rules/abr/L2ARule_BU.js:105 | `utilities[highestUtilityIndex]` is an entry of the utilities and at least every entry. |
| `Parameters.CalculateParameters` | dash.js/src/streaming/rules/abr/L2ARule_BU.js:104-123 | `null` exactly when no utility exceeds `utilities[0]`; otherwise `gp > 0`, `Vp > 0`, `Vp·(1 + gp - 1) = 10` and `Vp·(u_max + gp - 1)` equals the buffer target. |
| `Parameters.ParametersUnique` | dash.js/src/streaming/rules/abr/L2ARule_BU.js:115-121 | The two peak equations of the comment hold of a parameter pair exactly when it is the pair the function returns. |
| `Parameters.ParameterIdentities` | dash.js/src/streaming/rules/abr/L2ARule_BU.js:119-120 | The closed forms `gp = (u_max - 1)/(T/10 - 1)` and `Vp = 10/gp` are positive and satisfy both peak equations. |
| `Parameters.NoParametersIffOneLevel` | dash.js/src/streaming/rules/abr/L2ARule_BU.js:107-110 | With utilities increasing with the bitrates, no parameters exist exactly when the ladder has one level. |
| `Parameters.BestLevelIsTop` | dash.js/src/streaming/rules/abr/L2ARule_BU.js:105 | With increasing utilities the highest-utility index is the top level. |
| `BufferRule.QualityFromBufferLevel` | dash.js/src/streaming/rules/abr/L2ARule_BU.js:202-214 | An index on the ladder whose score is at least every score, with every later level scoring strictly less. |
| `BufferRule.QualityMonotoneInBuffer` | dash.js/src/streaming/rules/abr/L2ARule_BU.js:202-214 | A larger (effective) buffer level never makes the buffer rule choose a lower level. |
| `BufferRule.MaxBufferLevel` | dash.js/src/streaming/rules/abr/L2ARule_BU.js:216-219 | The score of level `q` is exactly 0 at this buffer level. |
| `BufferRule.ScoreNonNegativeIffBelowMax` | dash.js/src/streaming/rules/abr/L2ARule_BU.js:216-219 | Level `q` has a non-negative score, so is preferred to waiting, exactly up to its maximum buffer level. |
| `BufferRule.MaxBufferLevelAtLeastMinimum` | dash.js/src/streaming/rules/abr/L2ARule_BU.js:216-219 | With the parameters of `calculateL2AParameters`, the maximum buffer level of a level is at least `MINIMUM_BUFFER_S` (10 s) exactly when its utility is non-negative: the ground of the promise of line 51 that no delay is added below 10 s. |
| `BufferRule.CrossoverLevel` | dash.js/src/streaming/rules/abr/L2ARule_BU.js:233 | At this buffer level the lower level `i` and level `q` score the same. |
| `BufferRule.HigherLevelPreferredAboveCrossover` | dash.js/src/streaming/rules/abr/L2ARule_BU.js:228-234 | At or above the crossover level, `q` scores at least as well as the lower level `i`; below it, strictly worse. |
| `BufferRule.MinBufferLevel` | dash.js/src/streaming/rules/abr/L2ARule_BU.js:222-238 | Non-negative, 0 for level 0, at least every crossover with a lower level of smaller utility, and equal to 0 or to one of those crossovers (the maximum of 0 and them). |
| `BufferRule.MinBufferLevelIsThreshold` | dash.js/src/streaming/rules/abr/L2ARule_BU.js:221-238 | For a non-negative buffer level, `q` scores at least as well as every lower level of smaller utility exactly when the buffer is at least `minBufferLevelForQuality(q)`. |
| `BufferRule.QualityAtLeastFromMinBufferLevel` | dash.js/src/streaming/rules/abr/L2ARule_BU.js:221-238 | With increasing utilities, at or above `minBufferLevelForQuality(q)` the buffer rule chooses `q` or a higher level. Applied to `MediaState.StartupStep`'s seed, the STARTUP placeholder makes the buffer rule choose at least the throughput-based level. |
| `MediaState.InitialState` | dash.js/src/streaming/rules/abr/L2ARule_BU.js:126-152 | The new state satisfies the invariant; it is ONE_BITRATE exactly when no raw utility exceeds the first; otherwise STARTUP with the given bitrates, the normalised utilities and the given stable buffer time, last quality 0 and cleared segment fields. |
| `MediaState.InitialOneBitrateIffSingleLevel` | dash.js/src/streaming/rules/abr/L2ARule_BU.js:135-138 | For a ladder with increasing utilities, the initial state is ONE_BITRATE exactly when there is one bitrate, as the comment says. |
| `MediaState.CheckStableBufferTime` | dash.js/src/streaming/rules/abr/L2ARule_BU.js:165-187 | Parameters recomputed for the new stable buffer time; unchanged parameters leave the state untouched; changed parameters replace only the stable time, the parameters and the placeholder, the latter by `max(0, e' - buffer)` with `e'` the effective level rescaled about 10 s. |
| `MediaState.RescaleKeepsScoreOrder` | dash.js/src/streaming/rules/abr/L2ARule_BU.js:170-184 | Every score at the rescaled level is the old score times `Vp_new/Vp_old`, so the buffer rule chooses the same level there as before. |
| `MediaState.RescaledScoreAt` | dash.js/src/streaming/rules/abr/L2ARule_BU.js:170-184 | At the rescaled effective level, the score of each level is its old score times `Vp_new/Vp_old`, a positive factor. |
| `MediaState.RescaleDecision` | dash.js/src/streaming/rules/abr/L2ARule_BU.js:170-184 | After the rescale, the buffer rule's choice at any level at or above the rescaled one is at least the old choice, and equal at the rescaled level itself. |
| `MediaState.AccrueIdleTime` | dash.js/src/streaming/rules/abr/L2ARule_BU.js:257-270 | The placeholder grows by the non-negative idle time since the last download finished, or else since the last call, or not at all; the call time is recorded and the segment times cleared. |
| `MediaState.IdleTimeSplitsAcrossCalls` | dash.js/src/streaming/rules/abr/L2ARule_BU.js:261-267 | Without a download in between, two calls credit the same idle time as one call at the later time. |
| `MediaState.UpdatePlaceholderBuffer` | dash.js/src/streaming/rules/abr/L2ARule_BU.js:254-273 | Keeps the invariant (placeholder non-negative); records the call time, clears the segment times, and leaves the parameters as computed for the current stable buffer time. The placeholder is the one after the idle-time credit of `MediaState.AccrueIdleTime` when the parameters are unchanged, and otherwise that placeholder rescaled as `checkL2AStateStableBufferTime` does, `max(0, e' - b)` with `e'` the rescaled effective level. |
| `MediaState.CheckNewSegment` | dash.js/src/streaming/rules/abr/L2ARule_BU.js:346-370 | Nothing changes unless both the segment start and the request time are known; then only the placeholder changes and both are cleared. The placeholder kept before the replacement growth is the decayed one (×0.99) when the finish time is unknown; otherwise it is the smaller of the decayed placeholder and `max(0, maxBufferLevel(lastQuality) - bufferAtRequest)`: it exceeds neither and equals one of them. |
| `MediaState.ReplacementGrowth` | dash.js/src/streaming/rules/abr/L2ARule_BU.js:361-364 | The placeholder grows by exactly the last segment duration when the segment was a replacement of known duration, and by nothing otherwise. |
| `MediaState.TrimKeepsLastLevelWorthDownloading` | dash.js/src/streaming/rules/abr/L2ARule_BU.js:350-356 | If the last level was worth downloading at the buffer level of its request, it still is once the trimmed placeholder is added. |
| `MediaState.OnMediaFragmentLoaded` | dash.js/src/streaming/rules/abr/L2ARule_BU.js:302-321 | ONE_BITRATE is skipped; otherwise the last quality and duration are recorded, the replacement flag is set exactly when the start is not past the most advanced start, the most advanced start becomes the maximum of the two, and the start is kept as pending when no request time is known or consumed by the segment check together with the request time otherwise; no other field changes. When the request time is known, the placeholder is the one `MediaState.CheckNewSegment` leaves for the state with this fragment recorded. |
| `MediaState.OnMetricAdded` | dash.js/src/streaming/rules/abr/L2ARule_BU.js:323-333 | ONE_BITRATE is skipped; otherwise the finish time is recorded, the request time is kept as pending (placeholder unchanged) when no segment start is known, and otherwise both are consumed by the segment check; no other field changes. When a segment start is pending, the placeholder is the one `MediaState.CheckNewSegment` leaves for the state with the request and finish times recorded. |
| `MediaState.SegmentEventsCommute` | dash.js/src/streaming/rules/abr/L2ARule_BU.js:335-345 | With no segment pending, the two notifications of a finished download lead to the same state in either order. |
| `MediaState.OnQualityChangeRequested` | dash.js/src/streaming/rules/abr/L2ARule_BU.js:372-380 | ONE_BITRATE is skipped; otherwise only the requested quality is recorded. |
| `MediaState.AbandonTarget` | dash.js/src/streaming/rules/abr/L2ARule_BU.js:388-394 | The wanted effective level is `minBufferLevelForQuality(abrQuality)` for a requested level above 0, and 10 s otherwise. |
| `MediaState.OnFragmentLoadingAbandoned` | dash.js/src/streaming/rules/abr/L2ARule_BU.js:382-399 | ONE_BITRATE is skipped; otherwise only the placeholder changes, it never grows, the effective level ends at most at `max(buffer, want)`, and it either stays or lands exactly there. |
| `MediaState.OnBufferEmpty` | dash.js/src/streaming/rules/abr/L2ARule_BU.js:275-282 | A STEADY state loses its placeholder; every other state is unchanged. |
| `MediaState.OnSeek` | dash.js/src/streaming/rules/abr/L2ARule_BU.js:284-296 | ONE_BITRATE is unchanged; every other state goes to STARTUP with placeholder 0 and every segment field unknown (`clearL2AStateOnSeek`, lines 154-162); no other field changes. |
| `MediaState.OnSeekIdempotent` | dash.js/src/streaming/rules/abr/L2ARule_BU.js:284-296 | Seeking twice is the same as seeking once. |
| `MediaState.StartupStep` | dash.js/src/streaming/rules/abr/L2ARule_BU.js:550-563 | The placeholder is the least non-negative amount lifting the effective buffer to `minBufferLevelForQuality(q)`, the last quality becomes `q`, and the state turns STEADY exactly when the segment duration is known and the buffer holds it; nothing else changes. |
| `MediaState.Clamp` | dash.js/src/streaming/rules/abr/L2ARule_BU.js:672-680 | Never raises the level; keeps it exactly when it is not above the last level or not above the throughput-based level; otherwise it becomes the larger of those two. |
| `MediaState.ClampIsMinOfMax` | dash.js/src/streaming/rules/abr/L2ARule_BU.js:675-679 | The clamp is `min(q, max(qualityForThroughput, lastQuality))`. |
| `MediaState.DelaySplit` | dash.js/src/streaming/rules/abr/L2ARule_BU.js:684-700 | Placeholder and delay stay non-negative and the placeholder never grows; the effective buffer ends at `min(buffer + ph, max(buffer, maxBufferLevel))`; the delay is `max(0, buffer - maxBufferLevel)` below the top level and 0 at the top. |
| `MediaState.DelaySplitKeepsLevelWorthDownloading` | dash.js/src/streaming/rules/abr/L2ARule_BU.js:684-700 | If the chosen level is worth downloading at the real buffer level, it still is with the placeholder left after the split. |
| `Optimizer.Seed` | dash.js/src/streaming/rules/abr/L2ARule_BU.js:586-603 | An unseeded record gets `N` weights and previous weights of 0.33 and a zero queue; a seeded one is kept. |
| `Optimizer.MbpsKeepsOrder` | dash.js/src/streaming/rules/abr/L2ARule_BU.js:607 | The conversion keeps the rates positive and ascending. |
| `Optimizer.Cap` | dash.js/src/streaming/rules/abr/L2ARule_BU.js:637 | `min(2·topRate, c)` in Mbps: positive, at most both arguments, and equal to one of them. |
| `Optimizer.GradientStepAsWritten` | dash.js/src/streaming/rules/abr/L2ARule_BU.js:606-613 | The loop as written: every level below the top takes the single-normalizer step with `min(2·topRate, c)` computed on the top rate still in bps, and the top level takes it with the top rate in Mbps. |
| `Optimizer.GradientStepAlongRates` | dash.js/src/streaming/rules/abr/L2ARule_BU.js:606-613 | The moves of any two levels stand in the ratio of their rates: a gradient step along the rate vector. |
| `Optimizer.GradientStepAsWrittenNotAlongRates` | dash.js/src/streaming/rules/abr/L2ARule_BU.js:606-609 | For 1 and 2 Mbps levels and 10 Mbps of throughput the step as written does not move the weights in the ratio of the rates. |
| `Optimizer.GradientStepAsWrittenDiffers` | dash.js/src/streaming/rules/abr/L2ARule_BU.js:606-609 | Whenever the throughput lies between twice the top rate in Mbps and twice it in bps, every level below the top steps differently from the uniform-normalizer step. |
| `Optimizer.QueueUpdate` | dash.js/src/streaming/rules/abr/L2ARule_BU.js:636-641 | `Q1` is never negative; it is reset to 0 when the previous weighted rate is at least the throughput, and otherwise is the drift expression or 0, whichever is larger. |
| `Optimizer.NearestLevel` | dash.js/src/streaming/rules/abr/L2ARule_BU.js:649-656 | An index on the ladder whose rate (in Mbps) is nearest the weighted rate, every later level being strictly farther (the last nearest level wins): `indexOfMin` of the distances `temp`. |
| `Optimizer.Advance` | dash.js/src/streaming/rules/abr/L2ARule_BU.js:574-654 | The record still fits the ladder with `Q1 >= 0`; the weights are on the simplex; `prev_w` equals the new weights on the first `N` entries and keeps the rest; `Q1 = 0` when the previous weighted rate reaches the throughput. The step used is the one the code takes (`Optimizer.GradientStepAsWritten`); `Optimizer.AdvanceProjectsStep` states the step, the projection and the queue update. |
| `Optimizer.AdvanceProjectsStep` | dash.js/src/streaming/rules/abr/L2ARule_BU.js:606-641 | The new weights are the Euclidean projection of the step as written, extended by the weights beyond the ladder, and no point of the simplex of that length is nearer to that step; `Q1` is the queue update driven by the move `diff1` taken before the projection, with the current throughput in Mbps and the cap `Cap`. |
| `Optimizer.WeightedRateWithinLadder` | dash.js/src/streaming/rules/abr/L2ARule_BU.js:653 | With as many weights as levels, the weighted rate lies between the lowest and the highest rate. |
| `Optimizer.NearestLevelWithinHalfGap` | dash.js/src/streaming/rules/abr/L2ARule_BU.js:649-656 | A weighted rate inside the ladder is at most half the widest gap between neighbouring rates from the chosen level's rate. |
| `L2ARule.GetState` | dash.js/src/streaming/rules/abr/L2ARule_BU.js:189-199 | A fresh state for a new media type; ONE_BITRATE returned as stored; any other stored state only rechecked for its stable buffer time, so only the stable time, the parameters (those of the current stable buffer time) and the placeholder may differ. With unchanged parameters the stored state is returned as is; otherwise the placeholder is rescaled to `max(0, e' - bufferLevel)`, with `e'` the old effective level rescaled by `MediaState.RescaledLevel`. |
| `L2ARule.ChooseLevel` | dash.js/src/streaming/rules/abr/L2ARule_BU.js:574-656 | The new optimizer record is one `Optimizer.Advance` step (with the gradient step as written) and still fits the ladder; `qualityL2A` is the level `Optimizer.NearestLevel` picks for the new weighted rate, so it is on the ladder and nearest that rate. |
| `L2ARule.ChosenLevelNearWeightedRate` | dash.js/src/streaming/rules/abr/L2ARule_BU.js:649-656 | When the shared weights are as many as the levels, the returned level's rate is within half the widest gap of the weighted rate. |
| `L2ARule.SteadyStep` | dash.js/src/streaming/rules/abr/L2ARule_BU.js:565-712 | The state stays STEADY with the invariant kept; the returned level and new optimizer record are `ChooseLevel`'s and the level is stored as the last quality; the delay is non-negative and, as line 51 promises, 0 while the buffer is at most 10 s and no utility is negative. `L2ARule.SteadyStepSplits` ties the delay and the stored placeholder to the idle-time update and the buffer split. |
| `L2ARule.SteadyStepSplits` | dash.js/src/streaming/rules/abr/L2ARule_BU.js:668-700 | With `s1` the state after `updatePlaceholderBuffer`, the STEADY delay in seconds is the delay of the split of `bufferLevel + placeholderBuffer` above the clamped level's maximum (placeholder reduced first, then the schedule controller's delay, none at the top level), and the stored state is `s1` with the placeholder that split leaves and the optimizer's level as last quality. |
| `L2ARule.BufferChoice` | dash.js/src/streaming/rules/abr/L2ARule_BU.js:670-680 | The buffer rule's level after the anti-oscillation clamp: on the ladder, and exactly `min(q, max(qualityForThroughput, lastQuality))` with `q` the buffer rule's level at `bufferLevel + placeholderBuffer`. |
| `L2ARule.BufferSplit` | dash.js/src/streaming/rules/abr/L2ARule_BU.js:682-700 | The placeholder left and the delay are non-negative and the placeholder never grows; a positive delay happens only below the top level, with the buffer above the clamped level's maximum buffer level, and after the placeholder is used up; with no negative utility there is no delay while the buffer is at most 10 s. Exactly: with `m` the maximum buffer level of `L2ARule.BufferChoice`, `bufferLevel` plus the placeholder left is `min(bufferLevel + placeholder, max(bufferLevel, m))`, and the delay is `max(0, bufferLevel - m)` below the top level and 0 at the top. |
| `L2ARule.GetMaxIndex` | dash.js/src/streaming/rules/abr/L2ARule_BU.js:493-729 | Every stored state keeps its invariant; without L2A nothing changes and no delay is set; otherwise only this media type's entry changes, the delay is set and non-negative, any returned level is on the ladder and is stored as the last quality; ONE_BITRATE or unknown throughput answers `NO_CHANGE`, stores the state `getL2AState` returned and leaves the optimizer alone; in STEADY the answer and new optimizer record are the optimizer's (`L2ARule.SteadyCall` states the whole STEADY answer). |
| `L2ARule.OneBitrateNeverAdapts` | dash.js/src/streaming/rules/abr/L2ARule_BU.js:535-538 | A ONE_BITRATE media type answers `NO_CHANGE` and keeps its state and the optimizer record. |
| `L2ARule.OptimizerOnlyInSteady` | dash.js/src/streaming/rules/abr/L2ARule_BU.js:549-712 | The shared optimizer record changes only in a STEADY call with a known throughput. |
| `L2ARule.SteadyQualityIgnoresBuffer` | dash.js/src/streaming/rules/abr/L2ARule_BU.js:701-709 | In STEADY two calls that differ only in the buffer level answer the same level. |
| `L2ARule.NoDelayBelowMinimumBuffer` | dash.js/src/streaming/rules/abr/L2ARule_BU.js:682-700 | When no utility is negative and the buffer is at most 10 s, a call with L2A on sets a delay of 0, as lines 51 and 682-683 promise. |
| `L2ARule.StartupCall` | dash.js/src/streaming/rules/abr/L2ARule_BU.js:550-563 | A STARTUP call with a known throughput answers the throughput-based level with no delay, stores `StartupStep`'s state and leaves the optimizer alone. |
| `L2ARule.SteadyCall` | dash.js/src/streaming/rules/abr/L2ARule_BU.js:684-709 | A STEADY call with L2A on and a known throughput stores the STEADY step's state and optimizer record and answers its level with `delayMs` equal to 1000 times the STEADY step's delay in seconds, the value handed to `setTimeToLoadDelay`. |
| `L2ARule.FirstCallUsesThroughputLevel` | dash.js/src/streaming/rules/abr/L2ARule_BU.js:550-553 | The first call for a media type with two or more levels and a known throughput answers the throughput-based level. |
| `L2ARule.OnBufferEmptyAll` | dash.js/src/streaming/rules/abr/L2ARule_BU.js:275-282 | Applies the buffer-empty handler to every stored media type and nothing else. |
| `L2ARule.OnSeekAll` | dash.js/src/streaming/rules/abr/L2ARule_BU.js:284-296 | Applies the seek handler to every stored media type and nothing else. |
| `L2ARule.SeekLeavesNoSteady` | dash.js/src/streaming/rules/abr/L2ARule_BU.js:284-296 | After a seek every media type is ONE_BITRATE or STARTUP. |
| `L2ARule.OnMediaFragmentLoadedFor` | dash.js/src/streaming/rules/abr/L2ARule_BU.js:302-305 | An event for a media type without a state changes nothing; otherwise only that media type's state is updated. |
| `L2ARule.OnMetricAddedFor` | dash.js/src/streaming/rules/abr/L2ARule_BU.js:323-326 | Same, for the request metric. |
| `L2ARule.OnQualityChangeRequestedFor` | dash.js/src/streaming/rules/abr/L2ARule_BU.js:372-376 | Same, for the quality-change notification. |
| `L2ARule.OnFragmentLoadingAbandonedFor` | dash.js/src/streaming/rules/abr/L2ARule_BU.js:382-385 | Same, for the abandonment notification. |
| `L2ARule.Reset` | dash.js/src/streaming/rules/abr/L2ARule_BU.js:731-736 | The dictionary of states is emptied; the shared optimizer record, which lives outside the rule instance, is kept. |

## Left out

- `Math.log`, `Math.pow` and `Math.sqrt` are not modelled. The raw log utilities are an input. `VL` is 2.23606797749979, the shortest decimal of the double `Math.pow(5, 0.5)`.
- `alpha` is the constant 5, its exact-arithmetic value. In double precision `VL·√5` is 5.000000000000001, so the code's `alpha` exceeds 5 by one ulp.
- Floating point: all arithmetic is exact `real`. NaN-valued fields are `Option`. A throughput of 0, which would divide by zero, is excluded by the call contract for STEADY calls, the only calls that divide by it.
- `Date.now()` and the `Date` objects of the request metric are given numbers.
- The host's queries and its scheduler are inputs and outputs of a call:
  - `getCurrentBufferLevel`, `getStableBufferTime`, the throughput history, `getQualityForBitrate` and `getTopQualityIndexFor` are inputs;
  - `setTimeToLoadDelay` is the returned delay.
- The `reason` fields of the switch request, and all logging, are not modelled. They are diagnostics only.
- Event-bus subscription (`setup`, `reset`'s `off` calls) and the factory wiring are not modelled.
- The event filters of `onMetricAdded` and `onMediaFragmentLoaded` are not modelled. The model receives only media-segment requests and loaded chunks.
- The capability guard of `getMaxIndex` (lines 518-523) is not modelled. It cannot fire, because `rulesContext` is already dereferenced above it.
- The `default` branch of `getMaxIndex` is not modelled. It is unreachable: a stored state is ONE_BITRATE, STARTUP or STEADY, and ONE_BITRATE has already returned.
- `onPeriodSwitchStarted` is not modelled. It does nothing.
- `prev_w2`, `sum_w`, `Q2`, `prevqualityL2A`, `counter` and the `segment_*_s` globals are not modelled. They are scratch or logged only: `sum_w[i]` is reset to 0 in the same iteration that sets it.
- The commented-out alternative update rules are not modelled.
- The in-place `arr.sort` is modelled as a functional insertion sort. Only its result (a descending permutation) is used.
- `dash.js/samples/low-latency/L2ARuleBU.js` is not part of this model. It is a sample copy of the rule.
- A shared weight vector shorter than the ladder is excluded by the call contract (`Optimizer.Fits`) for STEADY calls with a known throughput, the only calls that read it. It only arises when a later media type has more levels than the one that seeded the vector, and then the code computes with `undefined` (NaN). A longer vector is modelled: `dotmultiplication` then returns its −1 sentinel, as in the code.
- The ladder is taken as the host delivers it: positive, strictly increasing bitrates, and one utility per bitrate. A media type's bitrates are assumed unchanged between calls.
- `MediaState.StartupStep`: the claim that the STARTUP seed makes the buffer rule choose at least the throughput-based level is not a separate member. It follows from `StartupStep`'s ensures `buffer + placeholder >= minBufferLevelForQuality(q)` together with `BufferRule.QualityAtLeastFromMinBufferLevel`.
- `MediaState.CheckStableBufferTime`: that the rescale keeps the buffer rule's choice is stated on the parameters and effective levels (`MediaState.RescaleDecision`), not on whole states.

## Findings

| source | as written | input that shows it | evidently intended | confidence | as-written member | corrected member |
|---|---|---|---|---|---|---|
| dash.js/src/streaming/rules/abr/L2ARule_BU.js:606-609 | The loop converts `bitrates[i]` to Mbps in place while it reads `Math.min(2*bitrates[bitrateCount-1], c_throughput)` as the normalizer. So levels below the top are normalized with the top rate still in bps (the normalizer is almost always `c_throughput`), and only the top level uses the top rate in Mbps. | Rates 1 000 000 and 2 000 000 bps, throughput 10 000 kbps (`c_throughput` = 10), `V` = 1, `Q1` = 0, `prev_w` = [0.33, 0.33]. Level 0 is normalized by 10, level 1 by min(4, 10) = 4, so the top weight moves 2.5 times too far relative to its rate. | One normalizer `min(2·topRate, c)`, with the top rate in Mbps, for every level. This is the normalizer the queue update at line 637 uses, and it makes the step a gradient step along the rate vector. | not executed | `Optimizer.GradientStepAsWrittenNotAlongRates` | `Optimizer.GradientStepAlongRates` |

=== FILE: buffer_rule.dfy ===
/** The buffer-based part of the rule: the score of a bitrate level at an
    effective buffer level, the level chosen from the buffer
    (`getQualityFromBufferLevel`), and the two buffer thresholds of a level
    (`maxBufferLevelForQuality`, `minBufferLevelForQuality`). Rates are in
    bps, buffer levels in seconds. */
module BufferRule {
  import opened Vectors
  import opened Parameters

  /** The score `(Vp·(utility + gp) - buffer) / bitrate` of level `i`. */
  function Score(l: Ladder, p: Params, i: nat, b: real): real
    requires WellFormedLadder(l) && i < Count(l)
  {
    (p.vp * (l.utilities[i] + p.gp) - b) / l.bitrates[i]
  }

  function Scores(l: Ladder, p: Params, b: real): (s: seq<real>)
    requires WellFormedLadder(l)
    ensures |s| == Count(l)
    ensures forall i :: 0 <= i < |s| ==> s[i] == Score(l, p, i, b)
  {
    seq(Count(l), i requires 0 <= i < Count(l) => Score(l, p, i, b))
  }

  /** `getQualityFromBufferLevel`: the level of highest score; the scan keeps
      a later level on a tie (`s >= score`), so the last best level wins. */
  function QualityFromBufferLevel(l: Ladder, p: Params, b: real): (q: nat)
    requires WellFormedLadder(l)
    ensures q < Count(l)
    ensures forall i :: 0 <= i < Count(l) ==> Score(l, p, i, b) <= Score(l, p, q, b)
    ensures forall i :: q < i < Count(l) ==> Score(l, p, i, b) < Score(l, p, q, b)
  {
    IndexOfMax(Scores(l, p, b))
  }

  /** `maxBufferLevelForQuality`: the buffer level at which the score of
      level `q` drops to zero. */
  function MaxBufferLevel(l: Ladder, p: Params, q: nat): (m: real)
    requires WellFormedLadder(l) && q < Count(l)
    ensures Score(l, p, q, m) == 0.0
  {
    p.vp * (l.utilities[q] + p.gp)
  }

  /** The promise of line 51: the maximum buffer level of a level is at
      least `MINIMUM_BUFFER_S` exactly when its utility is non-negative, so
      with non-negative utilities no level asks for a delay while the
      buffer is below 10 s. */
  lemma MaxBufferLevelAtLeastMinimum(l: Ladder, p: Params, q: nat)
    requires WellFormedLadder(l) && q < Count(l)
    requires p.vp > 0.0 && PeakAt(p, 1.0, MinimumBufferS)
    ensures MaxBufferLevel(l, p, q) >= MinimumBufferS <==> l.utilities[q] >= 0.0
  {
    assert MaxBufferLevel(l, p, q) == p.vp * l.utilities[q] + MinimumBufferS;
    if l.utilities[q] < 0.0 {
      assert p.vp * l.utilities[q] < 0.0;
    } else {
      assert p.vp * l.utilities[q] >= 0.0;
    }
  }

  /** Up to its maximum buffer level a level has a non-negative score, so
      downloading it is preferred to waiting; above it, waiting is. */
  lemma ScoreNonNegativeIffBelowMax(l: Ladder, p: Params, q: nat, b: real)
    requires WellFormedLadder(l) && q < Count(l)
    ensures Score(l, p, q, b) >= 0.0 <==> b <= MaxBufferLevel(l, p, q)
  {
    ScoreShift(l, p, q, MaxBufferLevel(l, p, q), b);
    SignOfQuotient(b - MaxBufferLevel(l, p, q), l.bitrates[q]);
  }

  /** The buffer level at which levels `i` and `q` score the same (line 233). */
  function CrossoverLevel(l: Ladder, p: Params, i: nat, q: nat): (c: real)
    requires WellFormedLadder(l) && i < q < Count(l)
    ensures Score(l, p, i, c) == Score(l, p, q, c)
  {
    CrossoverTie(p.vp, p.gp, l.utilities[i], l.utilities[q], l.bitrates[i], l.bitrates[q]);
    p.vp * (p.gp + (l.bitrates[q] * l.utilities[i] - l.bitrates[i] * l.utilities[q])
                   / (l.bitrates[q] - l.bitrates[i]))
  }

  /** `minBufferLevelForQuality`: starting from 0, the largest crossover level
      of `q` with every lower level of smaller utility. */
  function MinBufferLevel(l: Ladder, p: Params, q: nat): (m: real)
    requires WellFormedLadder(l) && q < Count(l)
    ensures m >= 0.0
    ensures q == 0 ==> m == 0.0
    ensures forall i :: 0 <= i < q && l.utilities[i] < l.utilities[q] ==> CrossoverLevel(l, p, i, q) <= m
    ensures m == 0.0 || exists i :: 0 <= i < q && l.utilities[i] < l.utilities[q] && m == CrossoverLevel(l, p, i, q)
  {
    MinLevelScan(l, p, q, q, 0.0)
  }

  /** The loop of lines 227-236, with `k` levels `k-1 … 0` still to visit
      and `acc` the running `min`. */
  function MinLevelScan(l: Ladder, p: Params, q: nat, k: nat, acc: real): (m: real)
    requires WellFormedLadder(l) && k <= q < Count(l)
    ensures m >= acc
    ensures forall i :: 0 <= i < k && l.utilities[i] < l.utilities[q] ==> CrossoverLevel(l, p, i, q) <= m
    ensures m == acc || exists i :: 0 <= i < k && l.utilities[i] < l.utilities[q] && m == CrossoverLevel(l, p, i, q)
    decreases k
  {
    if k == 0 then acc
    else if l.utilities[k - 1] < l.utilities[q] then
      MinLevelScan(l, p, q, k - 1, Max(acc, CrossoverLevel(l, p, k - 1, q)))
    else
      MinLevelScan(l, p, q, k - 1, acc)
  }

  // ---------------------------------------------------------------------
  // How scores move with the buffer level
  // ---------------------------------------------------------------------

  /** Raising the buffer level by `d` lowers the score of level `i` by `d / rate`. */
  lemma ScoreShift(l: Ladder, p: Params, i: nat, b1: real, b2: real)
    requires WellFormedLadder(l) && i < Count(l)
    ensures Score(l, p, i, b2) == Score(l, p, i, b1) - (b2 - b1) / l.bitrates[i]
  {
    QuotientShift(p.vp * (l.utilities[i] + p.gp), b1, b2, l.bitrates[i]);
  }

  lemma QuotientShift(a: real, b1: real, b2: real, r: real)
    requires r > 0.0
    ensures (a - b2) / r == (a - b1) / r - (b2 - b1) / r
  {
  }

  lemma SignOfQuotient(d: real, r: real)
    requires r > 0.0
    ensures d / r <= 0.0 <==> d <= 0.0
    ensures d / r < 0.0 <==> d < 0.0
  {
    assert (d / r) * r == d;
    if d / r < 0.0 {
      assert (d / r) * r < 0.0;
    }
    if d / r > 0.0 {
      assert (d / r) * r > 0.0;
    }
  }

  /** The algebra of line 233: at `L = Vp·(gp + (rq·ui - ri·uq)/(rq - ri))`
      both levels score `Vp·(uq - ui)/(rq - ri)`. */
  lemma CrossoverTie(vp: real, gp: real, ui: real, uq: real, ri: real, rq: real)
    requires 0.0 < ri < rq
    ensures (vp * (ui + gp) - vp * (gp + (rq * ui - ri * uq) / (rq - ri))) / ri
         == (vp * (uq + gp) - vp * (gp + (rq * ui - ri * uq) / (rq - ri))) / rq
  {
    var x := (rq * ui - ri * uq) / (rq - ri);
    var g := (uq - ui) / (rq - ri);
    assert x * (rq - ri) == rq * ui - ri * uq;
    assert (ui - x) * (rq - ri) == ri * (uq - ui);
    assert ui - x == ri * g;
    assert (uq - x) * (rq - ri) == rq * (uq - ui);
    assert uq - x == rq * g;
    assert vp * (ui + gp) - vp * (gp + x) == vp * (ui - x);
    assert vp * (uq + gp) - vp * (gp + x) == vp * (uq - x);
    assert vp * (ui - x) / ri == vp * g;
    assert vp * (uq - x) / rq == vp * g;
  }

  /** A difference divided by the smaller of two positive rates keeps its
      sign and grows in magnitude. */
  lemma DivideBySmaller(d: real, ri: real, rq: real)
    requires 0.0 < ri < rq
    ensures d >= 0.0 ==> d / ri >= d / rq
    ensures d < 0.0 ==> d / ri < d / rq
  {
    assert d / ri - d / rq == d * (rq - ri) / (ri * rq);
    assert ri * rq > 0.0;
    SignOfQuotient(d * (rq - ri), ri * rq);
    if d < 0.0 {
      assert d * (rq - ri) < 0.0;
    }
    if d >= 0.0 {
      assert d * (rq - ri) >= 0.0;
    }
  }

  /** Comparing a higher level `q` with a lower level `i`: at and above their
      crossover level `q` scores at least as well, below it strictly worse. */
  lemma HigherLevelPreferredAboveCrossover(l: Ladder, p: Params, i: nat, q: nat, b: real)
    requires WellFormedLadder(l) && i < q < Count(l)
    ensures b >= CrossoverLevel(l, p, i, q) ==> Score(l, p, i, b) <= Score(l, p, q, b)
    ensures b < CrossoverLevel(l, p, i, q) ==> Score(l, p, q, b) < Score(l, p, i, b)
  {
    ScoreShift(l, p, i, CrossoverLevel(l, p, i, q), b);
    ScoreShift(l, p, q, CrossoverLevel(l, p, i, q), b);
    DivideBySmaller(b - CrossoverLevel(l, p, i, q), l.bitrates[i], l.bitrates[q]);
  }

  // ---------------------------------------------------------------------
  // The meaning of the thresholds
  // ---------------------------------------------------------------------

  /** `minBufferLevelForQuality` is what its comment promises: from that
      buffer level on, level `q` scores at least as well as every lower
      level of smaller utility, and below it (for a non-negative buffer)
      one of them scores strictly better. */
  lemma MinBufferLevelIsThreshold(l: Ladder, p: Params, q: nat, b: real)
    requires WellFormedLadder(l) && q < Count(l)
    requires b >= 0.0
    ensures (forall i :: 0 <= i < q && l.utilities[i] < l.utilities[q] ==> Score(l, p, i, b) <= Score(l, p, q, b))
            <==> b >= MinBufferLevel(l, p, q)
  {
    if b >= MinBufferLevel(l, p, q) {
      forall i | 0 <= i < q && l.utilities[i] < l.utilities[q]
        ensures Score(l, p, i, b) <= Score(l, p, q, b)
      {
        HigherLevelPreferredAboveCrossover(l, p, i, q, b);
      }
    } else {
      var i :| 0 <= i < q && l.utilities[i] < l.utilities[q]
               && MinBufferLevel(l, p, q) == CrossoverLevel(l, p, i, q);
      HigherLevelPreferredAboveCrossover(l, p, i, q, b);
    }
  }

  /** With utilities ascending with the bitrates, at or above
      `minBufferLevelForQuality(q)` the buffer rule chooses `q` or a higher
      level. */
  lemma QualityAtLeastFromMinBufferLevel(l: Ladder, p: Params, q: nat, b: real)
    requires WellFormedLadder(l) && StrictlyIncreasing(l.utilities) && q < Count(l)
    requires b >= MinBufferLevel(l, p, q)
    ensures QualityFromBufferLevel(l, p, b) >= q
  {
    var k := QualityFromBufferLevel(l, p, b);
    if k < q {
      assert l.utilities[k] < l.utilities[q];
      HigherLevelPreferredAboveCrossover(l, p, k, q, b);
    }
  }

  /** The buffer rule never lowers its choice when the buffer grows. */
  lemma QualityMonotoneInBuffer(l: Ladder, p: Params, b1: real, b2: real)
    requires WellFormedLadder(l)
    requires b1 <= b2
    ensures QualityFromBufferLevel(l, p, b1) <= QualityFromBufferLevel(l, p, b2)
  {
    var q1 := QualityFromBufferLevel(l, p, b1);
    var q2 := QualityFromBufferLevel(l, p, b2);
    if q2 < q1 {
      ScoreShift(l, p, q1, b1, b2);
      ScoreShift(l, p, q2, b1, b2);
      DivideBySmaller(b2 - b1, l.bitrates[q2], l.bitrates[q1]);
    }
  }
}

=== FILE: l2a_rule.dfy ===
/** The rule as a whole: the dictionary of per-media-type states
    (`L2AStateDict`), the optimizer variables shared by all media types,
    `getMaxIndex`, and the event-bus handlers that act on every media type
    or on the one the event names. */
module L2ARule {
  import opened Wrappers
  import opened Vectors
  import opened Parameters
  import opened BufferRule
  import opened MediaState
  import opened Optimizer

  datatype Engine = Engine(states: map<string, L2AState>, opt: OptimizerState)

  /** Every stored state keeps the invariant of `MediaState.Valid`; the
      shared `w` and `prev_w` have the same length and `Q1` is non-negative. */
  predicate EngineValid(e: Engine)
  {
    && (forall k :: k in e.states ==> Valid(e.states[k]))
    && |e.opt.prevW| == |e.opt.w|
    && e.opt.q1 >= 0.0
  }

  /** What one `getMaxIndex` call reads from its rules context, the metrics,
      the media player model and the ABR controller. `throughputKbps` is
      `None` while the average throughput is NaN; `throughputQuality` is
      `getQualityForBitrate` of the safe throughput; `topQuality` is
      `getTopQualityIndexFor`; `nowMs` is `Date.now()`. */
  datatype CallContext = CallContext(
    mediaType: string,
    useL2AABR: bool,
    bitrates: seq<real>,
    rawUtilities: seq<real>,
    stableBufferTime: real,
    bufferLevel: real,
    throughputKbps: Option<real>,
    throughputQuality: nat,
    topQuality: nat,
    nowMs: real)

  /** The answer of `getMaxIndex`: the quality (`None` is `NO_CHANGE`) and
      the time-to-load delay passed to the schedule controller (`None` when
      the rule does not touch it). */
  datatype SwitchRequest = SwitchRequest(quality: Option<nat>, delayMs: Option<real>)

  datatype Outcome = Outcome(engine: Engine, request: SwitchRequest)

  /** What the host guarantees about a call: raw utilities for every
      bitrate, positive ascending bitrates, the same bitrates as when the
      state of this media type was created, a throughput-based level on the
      ladder, and, for a STEADY call with a known throughput (the only one
      that divides by the throughput or reads the weights), a positive
      throughput and a shared weight vector that is unseeded or long enough
      for this ladder. */
  predicate CallFits(e: Engine, ctx: CallContext)
  {
    && |ctx.rawUtilities| == |ctx.bitrates|
    && (|ctx.bitrates| > 0 ==> WellFormedLadder(Ladder(ctx.bitrates, ctx.rawUtilities)))
    && (ctx.mediaType in e.states && e.states[ctx.mediaType].Adaptive? ==>
          e.states[ctx.mediaType].ladder.bitrates == ctx.bitrates)
    && (|ctx.bitrates| > 0 ==> ctx.throughputQuality < |ctx.bitrates|)
    && (ctx.throughputKbps.Some? && ctx.mediaType in e.states && e.states[ctx.mediaType].Adaptive?
          && e.states[ctx.mediaType].phase == Steady
        ==> ctx.throughputKbps.value > 0.0 && Fits(e.opt, |ctx.bitrates|))
  }

  /** `getL2AState`: the stored state after the stable-buffer check, or a
      fresh one on the first call for this media type. */
  function GetState(e: Engine, ctx: CallContext): (s: L2AState)
    requires EngineValid(e) && CallFits(e, ctx)
    ensures Valid(s)
    ensures ctx.mediaType !in e.states ==> s == InitialState(ctx.bitrates, ctx.rawUtilities, ctx.stableBufferTime)
    ensures ctx.mediaType in e.states && e.states[ctx.mediaType].OneBitrate? ==> s.OneBitrate?
    ensures ctx.mediaType in e.states && e.states[ctx.mediaType].Adaptive? ==>
      && s.Adaptive?
      && s.phase == e.states[ctx.mediaType].phase
      && s.ladder == e.states[ctx.mediaType].ladder
      && s.lastSegmentDurationS == e.states[ctx.mediaType].lastSegmentDurationS
      && s == e.states[ctx.mediaType].(stableBufferTime := s.stableBufferTime, params := s.params,
                                       placeholderBuffer := s.placeholderBuffer)
    ensures s.Adaptive? ==> s.ladder.bitrates == ctx.bitrates
    ensures s.Adaptive? ==> s.params == CalculateParameters(ctx.stableBufferTime, s.ladder).value
    ensures ctx.mediaType in e.states && e.states[ctx.mediaType].Adaptive? ==>
      var o := e.states[ctx.mediaType];
      && (s.params == o.params ==> s == o)
      && (s.params != o.params ==>
            s.placeholderBuffer == Max(0.0, RescaledLevel(o.params, s.params, ctx.bufferLevel + o.placeholderBuffer)
                                            - ctx.bufferLevel))
  {
    if ctx.mediaType !in e.states then InitialState(ctx.bitrates, ctx.rawUtilities, ctx.stableBufferTime)
    else if e.states[ctx.mediaType].OneBitrate? then e.states[ctx.mediaType]
    else CheckStableBufferTime(e.states[ctx.mediaType], ctx.stableBufferTime, ctx.bufferLevel)
  }

  /** What the STEADY case produces. */
  datatype SteadyResult = SteadyResult(state: L2AState, opt: OptimizerState, quality: nat, delayS: real)

  /** The optimizer's level: one step of the shared record, then the level
      whose rate (in Mbps) is nearest the weighted rate of the new weights. */
  datatype Choice = Choice(opt: OptimizerState, quality: nat)

  function ChooseLevel(o: OptimizerState, rates: seq<real>, throughputKbps: real, v: real): (c: Choice)
    requires |rates| >= 1
    requires forall i :: 0 <= i < |rates| ==> rates[i] > 0.0
    requires forall i, j :: 0 <= i < j < |rates| ==> rates[i] < rates[j]
    requires Fits(o, |rates|) && throughputKbps > 0.0
    ensures c.opt == Advance(o, rates, throughputKbps, v)
    ensures Fits(c.opt, |rates|) && c.quality < |rates|
    ensures c.quality == NearestLevel(Mbps(rates), Dot(c.opt.w, Mbps(rates)))
  {
    var o' := Advance(o, rates, throughputKbps, v);
    Choice(o', NearestLevel(Mbps(rates), Dot(o'.w, Mbps(rates))))
  }

  /** When the shared weights are exactly as many as the levels, the
      weighted rate lies inside the ladder, so the chosen level is at most
      half the widest gap between neighbouring rates (in Mbps) away from it. */
  lemma ChosenLevelNearWeightedRate(o: OptimizerState, rates: seq<real>, throughputKbps: real, v: real, gap: real)
    requires |rates| >= 1
    requires forall i :: 0 <= i < |rates| ==> rates[i] > 0.0
    requires forall i, j :: 0 <= i < j < |rates| ==> rates[i] < rates[j]
    requires Fits(o, |rates|) && throughputKbps > 0.0
    requires |o.w| == 0 || |o.w| == |rates|
    requires gap >= 0.0 && forall i :: 0 <= i < |rates| - 1 ==> Mbps(rates)[i + 1] - Mbps(rates)[i] <= gap
    ensures var c := ChooseLevel(o, rates, throughputKbps, v);
      2.0 * Abs(Mbps(rates)[c.quality] - Dot(c.opt.w, Mbps(rates))) <= gap
  {
    var c := ChooseLevel(o, rates, throughputKbps, v);
    var rM := Mbps(rates);
    MbpsKeepsOrder(rates);
    assert |Seed(o, |rates|).w| == |rates|;
    assert |c.opt.w| == |rates|;
    var target := Dot(c.opt.w, rM);
    WeightedRateWithinLadder(c.opt.w, rM);
    NearestLevelWithinHalfGap(rM, target, gap);
    assert c.quality == NearestLevel(rM, target);
  }

  /** The STEADY case of `getMaxIndex` (lines 565-712): the optimizer picks
      `qualityL2A`, which is returned and remembered as the last quality;
      the buffer rule, clamped against oscillation, only decides how much
      of the excess buffer is taken from the placeholder and how much
      becomes a delay. */
  function SteadyStep(s: L2AState, opt: OptimizerState, ctx: CallContext, throughputKbps: real): (r: SteadyResult)
    requires Valid(s) && s.Adaptive? && s.phase == Steady
    requires s.ladder.bitrates == ctx.bitrates
    requires Fits(opt, |ctx.bitrates|) && throughputKbps > 0.0
    requires ctx.throughputQuality < |ctx.bitrates|
    ensures Valid(r.state) && r.state.Adaptive? && r.state.phase == Steady
    ensures r.quality < |ctx.bitrates| && r.state.lastQuality == r.quality
    ensures r.state.ladder == s.ladder && Fits(r.opt, |ctx.bitrates|)
    ensures Choice(r.opt, r.quality) == ChooseLevel(opt, ctx.bitrates, throughputKbps, s.lastSegmentDurationS.value)
    ensures r.delayS >= 0.0
    ensures NonNegativeUtilities(s.ladder) && ctx.bufferLevel <= MinimumBufferS ==> r.delayS == 0.0
  {
    var c := ChooseLevel(opt, ctx.bitrates, throughputKbps, s.lastSegmentDurationS.value);
    var s1 := UpdatePlaceholderBuffer(s, ctx.nowMs, ctx.stableBufferTime, ctx.bufferLevel);
    var split := BufferSplit(s1, ctx);
    SteadyResult(Settle(s1, split.placeholderBuffer, c.quality), c.opt, c.quality, split.delayS)
  }

  /** The placeholder bookkeeping of a STEADY call (lines 668-700): the
      idle-time update first, then the split of the buffer above the
      clamped level's maximum into what the placeholder absorbs and the
      delay handed to the schedule controller; the level stored is the
      optimizer's. */
  lemma SteadyStepSplits(s: L2AState, opt: OptimizerState, ctx: CallContext, throughputKbps: real)
    requires Valid(s) && s.Adaptive? && s.phase == Steady
    requires s.ladder.bitrates == ctx.bitrates
    requires Fits(opt, |ctx.bitrates|) && throughputKbps > 0.0
    requires ctx.throughputQuality < |ctx.bitrates|
    ensures var s1 := UpdatePlaceholderBuffer(s, ctx.nowMs, ctx.stableBufferTime, ctx.bufferLevel);
      var r := SteadyStep(s, opt, ctx, throughputKbps);
      && r.delayS == BufferSplit(s1, ctx).delayS
      && r.state == s1.(placeholderBuffer := BufferSplit(s1, ctx).placeholderBuffer, lastQuality := r.quality)
  {
  }

  /** Lines 670-680: the buffer rule's level at the effective buffer level,
      held back from oscillating by `Clamp`. */
  function BufferChoice(s: L2AState, ctx: CallContext): (q: nat)
    requires Valid(s) && s.Adaptive? && ctx.throughputQuality < Count(s.ladder)
    ensures q < Count(s.ladder)
    ensures q <= QualityFromBufferLevel(s.ladder, s.params, ctx.bufferLevel + s.placeholderBuffer)
    ensures q as real == Min(QualityFromBufferLevel(s.ladder, s.params, ctx.bufferLevel + s.placeholderBuffer) as real,
                             Max(ctx.throughputQuality as real, s.lastQuality as real))
  {
    ClampIsMinOfMax(QualityFromBufferLevel(s.ladder, s.params, ctx.bufferLevel + s.placeholderBuffer),
                    s.lastQuality, ctx.throughputQuality);
    Clamp(QualityFromBufferLevel(s.ladder, s.params, ctx.bufferLevel + s.placeholderBuffer),
          s.lastQuality, ctx.throughputQuality)
  }

  /** Lines 682-700: the buffer above the maximum buffer level of the
      buffer rule's level is taken from the placeholder first; only the rest
      becomes a delay, and only below the top level. No delay is added while
      the buffer is at most 10 s (line 51) if no utility is negative. */
  function BufferSplit(s: L2AState, ctx: CallContext): (sp: Split)
    requires Valid(s) && s.Adaptive? && ctx.throughputQuality < Count(s.ladder)
    ensures sp.placeholderBuffer >= 0.0 && sp.delayS >= 0.0
    ensures sp.placeholderBuffer <= s.placeholderBuffer
    ensures sp.delayS > 0.0 ==>
      && BufferChoice(s, ctx) < ctx.topQuality
      && ctx.bufferLevel > MaxBufferLevel(s.ladder, s.params, BufferChoice(s, ctx))
      && sp.placeholderBuffer == 0.0
    ensures NonNegativeUtilities(s.ladder) && ctx.bufferLevel <= MinimumBufferS ==> sp.delayS == 0.0
    ensures var m := MaxBufferLevel(s.ladder, s.params, BufferChoice(s, ctx));
      && ctx.bufferLevel + sp.placeholderBuffer == Min(ctx.bufferLevel + s.placeholderBuffer, Max(ctx.bufferLevel, m))
      && sp.delayS == if BufferChoice(s, ctx) < ctx.topQuality then Max(0.0, ctx.bufferLevel - m) else 0.0
  {
    var q := BufferChoice(s, ctx);
    MaxBufferLevelAtLeastMinimum(s.ladder, s.params, q);
    DelaySplit(s.placeholderBuffer, ctx.bufferLevel, MaxBufferLevel(s.ladder, s.params, q),
               q < ctx.topQuality)
  }

  function Settle(s: L2AState, ph: real, q: nat): (r: L2AState)
    requires Valid(s) && s.Adaptive? && ph >= 0.0 && q < Count(s.ladder)
    ensures Valid(r) && r.Adaptive?
    ensures r.phase == s.phase && r.ladder == s.ladder && r.lastQuality == q
  {
    s.(placeholderBuffer := ph, lastQuality := q)
  }

  /** Stores the state of one media type and leaves the others alone. */
  function Store(e: Engine, mediaType: string, s: L2AState, opt: OptimizerState): (r: Engine)
    requires EngineValid(e) && Valid(s) && opt.q1 >= 0.0 && |opt.prevW| == |opt.w|
    ensures EngineValid(r) && r.opt == opt
    ensures r.states.Keys == e.states.Keys + {mediaType}
    ensures r.states[mediaType] == s
    ensures forall k :: k in e.states && k != mediaType ==> r.states[k] == e.states[k]
  {
    Engine(e.states[mediaType := s], opt)
  }

  /** `getMaxIndex`. */
  function GetMaxIndex(e: Engine, ctx: CallContext): (r: Outcome)
    requires EngineValid(e) && CallFits(e, ctx)
    ensures EngineValid(r.engine)
    ensures !ctx.useL2AABR ==> r == Outcome(e, SwitchRequest(None, None))
    ensures ctx.useL2AABR ==>
      && r.engine.states.Keys == e.states.Keys + {ctx.mediaType}
      && (forall k :: k in e.states && k != ctx.mediaType ==> r.engine.states[k] == e.states[k])
      && r.request.delayMs.Some? && r.request.delayMs.value >= 0.0
      && (r.request.quality.Some? ==> r.request.quality.value < |ctx.bitrates|)
      && (r.engine.states[ctx.mediaType].Adaptive? && r.request.quality.Some? ==>
            r.engine.states[ctx.mediaType].lastQuality == r.request.quality.value)
      && (r.engine.states[ctx.mediaType].OneBitrate? || ctx.throughputKbps.None? ==>
            r.request == SwitchRequest(None, Some(0.0)))
    ensures ctx.useL2AABR && (GetState(e, ctx).OneBitrate? || ctx.throughputKbps.None?) ==>
      r.engine.states[ctx.mediaType] == GetState(e, ctx) && r.engine.opt == e.opt
    ensures ctx.useL2AABR && ctx.throughputKbps.Some? && ctx.mediaType in e.states
            && e.states[ctx.mediaType].Adaptive? && e.states[ctx.mediaType].phase == Steady ==>
      var c := ChooseLevel(e.opt, ctx.bitrates, ctx.throughputKbps.value,
                           e.states[ctx.mediaType].lastSegmentDurationS.value);
      r.request.quality == Some(c.quality) && r.engine.opt == c.opt
  {
    if !ctx.useL2AABR then Outcome(e, SwitchRequest(None, None))
    else
      var s := GetState(e, ctx);
      if s.OneBitrate? || ctx.throughputKbps.None? then
        Outcome(Store(e, ctx.mediaType, s, e.opt), SwitchRequest(None, Some(0.0)))
      else if s.phase == Startup then StartupOutcome(e, ctx, s)
      else SteadyOutcome(e, ctx, s, ctx.throughputKbps.value)
  }

  /** The STARTUP case stored and answered. */
  function StartupOutcome(e: Engine, ctx: CallContext, s: L2AState): (r: Outcome)
    requires EngineValid(e) && Valid(s) && s.Adaptive? && s.phase == Startup
    requires ctx.throughputQuality < Count(s.ladder)
    ensures EngineValid(r.engine) && r.engine.opt == e.opt
    ensures r.engine.states.Keys == e.states.Keys + {ctx.mediaType}
    ensures forall k :: k in e.states && k != ctx.mediaType ==> r.engine.states[k] == e.states[k]
    ensures r.engine.states[ctx.mediaType] == StartupStep(s, ctx.throughputQuality, ctx.bufferLevel)
    ensures r.request == SwitchRequest(Some(ctx.throughputQuality), Some(0.0))
  {
    Outcome(Store(e, ctx.mediaType, StartupStep(s, ctx.throughputQuality, ctx.bufferLevel), e.opt),
            SwitchRequest(Some(ctx.throughputQuality), Some(0.0)))
  }

  /** The STEADY case stored and answered, the delay in ms. */
  function SteadyOutcome(e: Engine, ctx: CallContext, s: L2AState, throughputKbps: real): (r: Outcome)
    requires EngineValid(e) && Valid(s) && s.Adaptive? && s.phase == Steady
    requires s.ladder.bitrates == ctx.bitrates
    requires Fits(e.opt, |ctx.bitrates|) && throughputKbps > 0.0
    requires ctx.throughputQuality < |ctx.bitrates|
    ensures EngineValid(r.engine)
    ensures r.engine.states.Keys == e.states.Keys + {ctx.mediaType}
    ensures forall k :: k in e.states && k != ctx.mediaType ==> r.engine.states[k] == e.states[k]
    ensures r.engine.states[ctx.mediaType].Adaptive? && r.request.quality.Some?
    ensures r.request.quality.value < |ctx.bitrates|
    ensures r.engine.states[ctx.mediaType].lastQuality == r.request.quality.value
    ensures r.request.delayMs.Some? && r.request.delayMs.value >= 0.0
    ensures Choice(r.engine.opt, r.request.quality.value)
         == ChooseLevel(e.opt, ctx.bitrates, throughputKbps, s.lastSegmentDurationS.value)
    ensures NonNegativeUtilities(s.ladder) && ctx.bufferLevel <= MinimumBufferS ==> r.request.delayMs == Some(0.0)
    ensures var st := SteadyStep(s, e.opt, ctx, throughputKbps);
      && r.request == SwitchRequest(Some(st.quality), Some(1000.0 * st.delayS))
      && r.engine.states[ctx.mediaType] == st.state && r.engine.opt == st.opt
  {
    Answer(e, ctx.mediaType, SteadyStep(s, e.opt, ctx, throughputKbps))
  }

  /** A STEADY result stored, with its delay turned into ms. */
  function Answer(e: Engine, mediaType: string, st: SteadyResult): (r: Outcome)
    requires EngineValid(e) && Valid(st.state) && st.opt.q1 >= 0.0 && |st.opt.prevW| == |st.opt.w|
    requires st.delayS >= 0.0
    ensures EngineValid(r.engine) && r.engine.opt == st.opt
    ensures r.engine.states.Keys == e.states.Keys + {mediaType}
    ensures forall k :: k in e.states && k != mediaType ==> r.engine.states[k] == e.states[k]
    ensures r.engine.states[mediaType] == st.state
    ensures r.request == SwitchRequest(Some(st.quality), Some(1000.0 * st.delayS))
    ensures r.request.delayMs.Some? && r.request.delayMs.value >= 0.0
    ensures st.delayS == 0.0 ==> r.request.delayMs == Some(0.0)
  {
    Outcome(Store(e, mediaType, st.state, st.opt), SwitchRequest(Some(st.quality), Some(1000.0 * st.delayS)))
  }

  /** A media type whose state is ONE_BITRATE never adapts: every call
      answers `NO_CHANGE` and leaves the state and the optimizer alone. */
  lemma OneBitrateNeverAdapts(e: Engine, ctx: CallContext)
    requires EngineValid(e) && CallFits(e, ctx)
    requires ctx.mediaType in e.states && e.states[ctx.mediaType].OneBitrate?
    ensures GetMaxIndex(e, ctx).request.quality == None
    ensures GetMaxIndex(e, ctx).engine.states[ctx.mediaType] == OneBitrate
    ensures GetMaxIndex(e, ctx).engine.opt == e.opt
  {
  }

  /** The shared optimizer record changes only in a STEADY call with a
      known throughput; only then is `qualityL2A` returned. */
  lemma OptimizerOnlyInSteady(e: Engine, ctx: CallContext)
    requires EngineValid(e) && CallFits(e, ctx)
    requires !(ctx.useL2AABR && ctx.mediaType in e.states && e.states[ctx.mediaType].Adaptive?
               && e.states[ctx.mediaType].phase == Steady && ctx.throughputKbps.Some?)
    ensures GetMaxIndex(e, ctx).engine.opt == e.opt
  {
    if ctx.useL2AABR && ctx.mediaType !in e.states {
      var s := GetState(e, ctx);
      assert s.Adaptive? ==> s.phase == Startup;
    }
  }

  /** In STEADY the returned level depends on the buffer level not at all:
      two calls that differ only in the buffer level answer the same. */
  lemma SteadyQualityIgnoresBuffer(e: Engine, ctx: CallContext, b2: real)
    requires EngineValid(e) && CallFits(e, ctx)
    requires ctx.useL2AABR && ctx.throughputKbps.Some?
    requires ctx.mediaType in e.states && e.states[ctx.mediaType].Adaptive?
    requires e.states[ctx.mediaType].phase == Steady
    ensures GetMaxIndex(e, ctx).request.quality == GetMaxIndex(e, ctx.(bufferLevel := b2)).request.quality
  {
  }

  /** No call adds a delay while the buffer is at most `MINIMUM_BUFFER_S`,
      provided no utility of the media type is negative (line 51). */
  lemma NoDelayBelowMinimumBuffer(e: Engine, ctx: CallContext)
    requires EngineValid(e) && CallFits(e, ctx)
    requires ctx.useL2AABR && ctx.bufferLevel <= MinimumBufferS
    requires GetState(e, ctx).Adaptive? ==> NonNegativeUtilities(GetState(e, ctx).ladder)
    ensures GetMaxIndex(e, ctx).request.delayMs == Some(0.0)
  {
  }

  /** A STARTUP call with a known throughput answers the throughput-based
      level, seeds the placeholder through `StartupStep`, and leaves the
      optimizer alone. */
  lemma StartupCall(e: Engine, ctx: CallContext)
    requires EngineValid(e) && CallFits(e, ctx)
    requires ctx.useL2AABR && ctx.throughputKbps.Some?
    requires GetState(e, ctx).Adaptive? && GetState(e, ctx).phase == Startup
    ensures GetMaxIndex(e, ctx).request == SwitchRequest(Some(ctx.throughputQuality), Some(0.0))
    ensures GetMaxIndex(e, ctx).engine.states[ctx.mediaType]
         == StartupStep(GetState(e, ctx), ctx.throughputQuality, ctx.bufferLevel)
    ensures GetMaxIndex(e, ctx).engine.opt == e.opt
  {
  }

  /** A STEADY call with a known throughput answers the optimizer's level
      with the delay of the STEADY step in ms (line 696), stores the STEADY
      step's state and moves the optimizer one step. */
  lemma SteadyCall(e: Engine, ctx: CallContext)
    requires EngineValid(e) && CallFits(e, ctx)
    requires ctx.useL2AABR && ctx.throughputKbps.Some?
    requires GetState(e, ctx).Adaptive? && GetState(e, ctx).phase == Steady
    ensures GetMaxIndex(e, ctx).engine.states[ctx.mediaType]
         == SteadyStep(GetState(e, ctx), e.opt, ctx, ctx.throughputKbps.value).state
    ensures GetMaxIndex(e, ctx).engine.opt == SteadyStep(GetState(e, ctx), e.opt, ctx, ctx.throughputKbps.value).opt
    ensures var st := SteadyStep(GetState(e, ctx), e.opt, ctx, ctx.throughputKbps.value);
      GetMaxIndex(e, ctx).request == SwitchRequest(Some(st.quality), Some(1000.0 * st.delayS))
  {
    SteadyBranch(e, ctx);
  }

  /** A STEADY call with a known throughput takes the STEADY branch. */
  lemma SteadyBranch(e: Engine, ctx: CallContext)
    requires EngineValid(e) && CallFits(e, ctx)
    requires ctx.useL2AABR && ctx.throughputKbps.Some?
    requires GetState(e, ctx).Adaptive? && GetState(e, ctx).phase == Steady
    ensures ctx.mediaType in e.states && Fits(e.opt, |ctx.bitrates|)
    ensures GetMaxIndex(e, ctx) == SteadyOutcome(e, ctx, GetState(e, ctx), ctx.throughputKbps.value)
    ensures GetMaxIndex(e, ctx) == Answer(e, ctx.mediaType, SteadyStep(GetState(e, ctx), e.opt, ctx, ctx.throughputKbps.value))
  {
    assert ctx.mediaType in e.states && e.states[ctx.mediaType].phase == Steady;
  }

  /** A fresh media type starts in STARTUP and the first answer with a known
      throughput is the throughput-based level. */
  lemma FirstCallUsesThroughputLevel(e: Engine, ctx: CallContext)
    requires EngineValid(e) && CallFits(e, ctx)
    requires ctx.useL2AABR && ctx.throughputKbps.Some?
    requires ctx.mediaType !in e.states
    requires |ctx.bitrates| >= 2 && StrictlyIncreasing(ctx.rawUtilities)
    ensures GetMaxIndex(e, ctx).request.quality == Some(ctx.throughputQuality)
  {
    InitialOneBitrateIffSingleLevel(ctx.bitrates, ctx.rawUtilities, ctx.stableBufferTime);
  }

  // ---------------------------------------------------------------------
  // Event-bus handlers
  // ---------------------------------------------------------------------

  /** `onBufferEmpty`: every STEADY media type loses its placeholder buffer. */
  function OnBufferEmptyAll(e: Engine): (r: Engine)
    requires EngineValid(e)
    ensures EngineValid(r) && r.opt == e.opt
    ensures r.states.Keys == e.states.Keys
    ensures forall k :: k in r.states ==> r.states[k] == OnBufferEmpty(e.states[k])
  {
    e.(states := map k | k in e.states :: OnBufferEmpty(e.states[k]))
  }

  /** `onPlaybackSeeking`: every adaptive media type restarts in STARTUP. */
  function OnSeekAll(e: Engine): (r: Engine)
    requires EngineValid(e)
    ensures EngineValid(r) && r.opt == e.opt
    ensures r.states.Keys == e.states.Keys
    ensures forall k :: k in r.states ==> r.states[k] == OnSeek(e.states[k])
  {
    e.(states := map k | k in e.states :: OnSeek(e.states[k]))
  }

  /** After a seek no media type is in STEADY, so the next call of each
      adaptive one goes through STARTUP again. */
  lemma SeekLeavesNoSteady(e: Engine)
    requires EngineValid(e)
    ensures forall k :: k in OnSeekAll(e).states ==>
      OnSeekAll(e).states[k].OneBitrate? || OnSeekAll(e).states[k].phase == Startup
  {
  }

  /** Applies a per-state handler to the media type an event names; an
      event for a media type without a state is ignored. */
  function ForType(e: Engine, mediaType: string, r: L2AState): (e': Engine)
    requires EngineValid(e) && mediaType in e.states && Valid(r)
    ensures EngineValid(e') && e'.opt == e.opt
    ensures e'.states == e.states[mediaType := r]
  {
    Store(e, mediaType, r, e.opt)
  }

  /** `onMediaFragmentLoaded`. */
  function OnMediaFragmentLoadedFor(e: Engine, mediaType: string, start: real, duration: real,
                                    quality: nat, b: real): (r: Engine)
    requires EngineValid(e) && duration >= 0.0
    requires mediaType in e.states && e.states[mediaType].Adaptive? ==> quality < Count(e.states[mediaType].ladder)
    ensures EngineValid(r) && r.opt == e.opt
    ensures mediaType !in e.states ==> r == e
    ensures mediaType in e.states ==>
      r.states == e.states[mediaType := OnMediaFragmentLoaded(e.states[mediaType], start, duration, quality, b)]
  {
    if mediaType !in e.states then e
    else ForType(e, mediaType, OnMediaFragmentLoaded(e.states[mediaType], start, duration, quality, b))
  }

  /** `onMetricAdded` for a media-segment request. */
  function OnMetricAddedFor(e: Engine, mediaType: string, requestMs: real, finishMs: real, b: real): (r: Engine)
    requires EngineValid(e)
    ensures EngineValid(r) && r.opt == e.opt
    ensures mediaType !in e.states ==> r == e
    ensures mediaType in e.states ==>
      r.states == e.states[mediaType := OnMetricAdded(e.states[mediaType], requestMs, finishMs, b)]
  {
    if mediaType !in e.states then e
    else ForType(e, mediaType, OnMetricAdded(e.states[mediaType], requestMs, finishMs, b))
  }

  /** `onQualityChangeRequested`. */
  function OnQualityChangeRequestedFor(e: Engine, mediaType: string, newQuality: nat): (r: Engine)
    requires EngineValid(e)
    requires mediaType in e.states && e.states[mediaType].Adaptive? ==> newQuality < Count(e.states[mediaType].ladder)
    ensures EngineValid(r) && r.opt == e.opt
    ensures mediaType !in e.states ==> r == e
    ensures mediaType in e.states ==>
      r.states == e.states[mediaType := OnQualityChangeRequested(e.states[mediaType], newQuality)]
  {
    if mediaType !in e.states then e
    else ForType(e, mediaType, OnQualityChangeRequested(e.states[mediaType], newQuality))
  }

  /** `onFragmentLoadingAbandoned`. */
  function OnFragmentLoadingAbandonedFor(e: Engine, mediaType: string, b: real): (r: Engine)
    requires EngineValid(e)
    ensures EngineValid(r) && r.opt == e.opt
    ensures mediaType !in e.states ==> r == e
    ensures mediaType in e.states ==>
      r.states == e.states[mediaType := OnFragmentLoadingAbandoned(e.states[mediaType], b)]
  {
    if mediaType !in e.states then e
    else ForType(e, mediaType, OnFragmentLoadingAbandoned(e.states[mediaType], b))
  }

  /** `reset`: the state dictionary is emptied; the optimizer variables live
      outside the rule instance and survive. */
  function Reset(e: Engine): (r: Engine)
    ensures EngineValid(e) ==> EngineValid(r)
    ensures r.states == map[] && r.opt == e.opt
  {
    e.(states := map[])
  }
}

=== FILE: media_state.dfy ===
/** The per-media-type L2A state (`L2AState`) and every function of the rule
    that writes it apart from the optimizer: its creation, the stable-buffer
    check, the placeholder-buffer bookkeeping, the event handlers, the
    STARTUP step, the oscillation clamp and the split of the excess buffer
    into placeholder reduction and delay. Times are in ms, buffer levels and
    durations in seconds. */
module MediaState {
  import opened Wrappers
  import opened Vectors
  import opened Parameters
  import opened BufferRule

  /** `PLACEHOLDER_BUFFER_DECAY`. */
  const PlaceholderBufferDecay: real := 0.99

  datatype Phase = Startup | Steady

  /** `OneBitrate` is the record `{state: L2A_STATE_ONE_BITRATE}`; every other
      state carries the fields below. A field that is NaN or undefined in the
      record is `None`. */
  datatype L2AState =
    | OneBitrate
    | Adaptive(
        phase: Phase,
        ladder: Ladder,
        stableBufferTime: real,
        params: Params,
        lastQuality: nat,
        placeholderBuffer: real,
        mostAdvancedSegmentStart: Option<real>,
        lastSegmentWasReplacement: bool,
        lastSegmentStart: Option<real>,
        lastSegmentDurationS: Option<real>,
        lastSegmentRequestTimeMs: Option<real>,
        lastSegmentFinishTimeMs: Option<real>,
        lastCallTimeMs: Option<real>,
        abrQuality: Option<nat>)

  /** The invariant every handler keeps: a well-formed ladder with normalized
      utilities, parameters computed from the stored stable buffer time,
      qualities on the ladder, a non-negative placeholder buffer, and a
      known segment duration once in STEADY. */
  predicate Valid(s: L2AState)
  {
    s.Adaptive? ==>
      && WellFormedLadder(s.ladder)
      && s.ladder.utilities[0] == 1.0
      && CalculateParameters(s.stableBufferTime, s.ladder) == Some(s.params)
      && s.lastQuality < Count(s.ladder)
      && (s.abrQuality.Some? ==> s.abrQuality.value < Count(s.ladder))
      && s.placeholderBuffer >= 0.0
      && (s.lastSegmentDurationS.Some? ==> s.lastSegmentDurationS.value >= 0.0)
      && (s.phase == Steady ==> s.lastSegmentDurationS.Some?)
  }

  /** The fields `clearL2AStateOnSeek` resets. */
  predicate Cleared(s: L2AState)
    requires s.Adaptive?
  {
    && s.placeholderBuffer == 0.0
    && s.mostAdvancedSegmentStart == None
    && !s.lastSegmentWasReplacement
    && s.lastSegmentStart == None
    && s.lastSegmentDurationS == None
    && s.lastSegmentRequestTimeMs == None
    && s.lastSegmentFinishTimeMs == None
  }

  /** `clearL2AStateOnSeek`. */
  function ClearOnSeek(s: L2AState): (r: L2AState)
    requires s.Adaptive?
    ensures r.Adaptive? && Cleared(r)
    ensures r.phase == s.phase && r.ladder == s.ladder && r.stableBufferTime == s.stableBufferTime
    ensures r.params == s.params && r.lastQuality == s.lastQuality
    ensures r.lastCallTimeMs == s.lastCallTimeMs && r.abrQuality == s.abrQuality
  {
    s.(placeholderBuffer := 0.0, mostAdvancedSegmentStart := None, lastSegmentWasReplacement := false,
       lastSegmentStart := None, lastSegmentDurationS := None,
       lastSegmentRequestTimeMs := None, lastSegmentFinishTimeMs := None)
  }

  /** `getInitialL2AState`, given the bitrates of the media type, their raw
      utilities (`Math.log` of each bitrate) and the stable buffer time.
      The rule gives up on adaptation exactly when no raw utility exceeds
      the first one; otherwise it starts in STARTUP at the lowest level with
      everything else cleared. */
  function InitialState(bitrates: seq<real>, rawUtilities: seq<real>, stableBufferTime: real): (s: L2AState)
    requires |rawUtilities| == |bitrates|
    requires |bitrates| > 0 ==> WellFormedLadder(Ladder(bitrates, rawUtilities))
    ensures Valid(s)
    ensures s.OneBitrate? <==> forall i :: 0 <= i < |rawUtilities| ==> rawUtilities[i] <= rawUtilities[0]
    ensures s.Adaptive? ==>
      && s.phase == Startup
      && s.ladder == Ladder(bitrates, Normalize(rawUtilities))
      && s.stableBufferTime == stableBufferTime
      && s.lastQuality == 0
      && Cleared(s)
      && s.lastCallTimeMs == None
      && s.abrQuality == None
  {
    var l := Ladder(bitrates, Normalize(rawUtilities));
    match CalculateParameters(stableBufferTime, l)
    case None => OneBitrate
    case Some(p) =>
      ClearOnSeek(Adaptive(Startup, l, stableBufferTime, p, 0, 0.0, None, false,
                           None, None, None, None, None, None))
  }

  /** With the default utilities (ascending with the bitrates) the rule falls
      back to a single level exactly when there is only one (line 136). */
  lemma InitialOneBitrateIffSingleLevel(bitrates: seq<real>, rawUtilities: seq<real>, stableBufferTime: real)
    requires |rawUtilities| == |bitrates| >= 1
    requires WellFormedLadder(Ladder(bitrates, rawUtilities))
    requires StrictlyIncreasing(rawUtilities)
    ensures InitialState(bitrates, rawUtilities, stableBufferTime).OneBitrate? <==> |bitrates| == 1
  {
    if |bitrates| > 1 {
      assert rawUtilities[1] > rawUtilities[0];
    }
  }

  // ---------------------------------------------------------------------
  // Stable buffer time
  // ---------------------------------------------------------------------

  /** `checkL2AStateStableBufferTime` at buffer level `b`: when the stable
      buffer time moved and the parameters with it, the new parameters are
      stored and the placeholder buffer is rescaled so that the effective
      buffer keeps its offset from 10 s, scaled by `Vp_new / Vp_old`. */
  function CheckStableBufferTime(s: L2AState, stableBufferTime: real, b: real): (r: L2AState)
    requires Valid(s) && s.Adaptive?
    ensures Valid(r) && r.Adaptive?
    ensures r.params == CalculateParameters(stableBufferTime, s.ladder).value
    ensures r.ladder == s.ladder
    ensures r.params == s.params ==> r == s
    ensures r.params != s.params ==>
      && r == s.(stableBufferTime := stableBufferTime, params := r.params, placeholderBuffer := r.placeholderBuffer)
      && r.placeholderBuffer == Max(0.0, RescaledLevel(s.params, r.params, b + s.placeholderBuffer) - b)
  {
    if s.stableBufferTime == stableBufferTime then s
    else
      var p := CalculateParameters(stableBufferTime, s.ladder).value;
      if p == s.params then s
      else
        s.(stableBufferTime := stableBufferTime, params := p,
           placeholderBuffer := Max(0.0, RescaledLevel(s.params, p, b + s.placeholderBuffer) - b))
  }

  /** The effective buffer level after the parameter change: 10 s stays put
      and the distance from it is scaled by `Vp_new / Vp_old` (lines 175-178). */
  function RescaledLevel(before: Params, after: Params, e: real): real
    requires before.vp > 0.0
  {
    (e - MinimumBufferS) * (after.vp / before.vp) + MinimumBufferS
  }

  /** Why the rescale works: every score at the rescaled level is the old
      score times `Vp_new / Vp_old`, so the buffer rule makes the same choice
      at the rescaled effective level. */
  lemma RescaleKeepsScoreOrder(l: Ladder, before: Params, after: Params, e: real)
    requires WellFormedLadder(l)
    requires before.vp > 0.0 && after.vp > 0.0
    requires PeakAt(before, 1.0, MinimumBufferS) && PeakAt(after, 1.0, MinimumBufferS)
    ensures QualityFromBufferLevel(l, after, RescaledLevel(before, after, e)) == QualityFromBufferLevel(l, before, e)
  {
    var a := Scores(l, before, e);
    var c := Scores(l, after, RescaledLevel(before, after, e));
    forall i | 0 <= i < Count(l)
      ensures c[i] == (after.vp / before.vp) * a[i]
    {
      RescaledScoreAt(l, before, after, e, i);
    }
    IndexOfMaxScaled(a, c, after.vp / before.vp);
  }

  lemma RescaledScoreAt(l: Ladder, before: Params, after: Params, e: real, i: nat)
    requires WellFormedLadder(l) && i < Count(l)
    requires before.vp > 0.0 && after.vp > 0.0
    requires PeakAt(before, 1.0, MinimumBufferS) && PeakAt(after, 1.0, MinimumBufferS)
    ensures Score(l, after, i, RescaledLevel(before, after, e)) == (after.vp / before.vp) * Score(l, before, i, e)
  {
    RescaledScore(before.vp, before.gp, after.vp, after.gp, l.utilities[i], l.bitrates[i], e);
  }

  lemma RescaledScore(vp: real, gp: real, vp2: real, gp2: real, u: real, r: real, e: real)
    requires vp > 0.0 && r > 0.0
    requires vp * (1.0 + gp - 1.0) == MinimumBufferS && vp2 * (1.0 + gp2 - 1.0) == MinimumBufferS
    ensures (vp2 * (u + gp2) - ((e - MinimumBufferS) * (vp2 / vp) + MinimumBufferS)) / r
         == (vp2 / vp) * ((vp * (u + gp) - e) / r)
  {
    var k := vp2 / vp;
    assert vp2 == k * vp;
    assert vp2 * (u + gp2) - ((e - MinimumBufferS) * k + MinimumBufferS) == k * (vp * u - (e - MinimumBufferS));
    assert vp * (u + gp) - e == vp * u - (e - MinimumBufferS);
  }

  /** A positive factor does not change where the last maximum sits. */
  lemma IndexOfMaxScaled(a: seq<real>, c: seq<real>, k: real)
    requires |a| == |c| && k > 0.0
    requires forall i :: 0 <= i < |a| ==> c[i] == k * a[i]
    ensures IndexOfMax(c) == IndexOfMax(a)
  {
    if |a| > 0 {
      var m := IndexOfMax(a);
      ScaledLastMax(a, c, k, m);
      IndexOfMaxUnique(c, m);
    }
  }

  lemma ScaledLastMax(a: seq<real>, c: seq<real>, k: real, m: nat)
    requires |a| == |c| && k > 0.0 && m < |a|
    requires forall i :: 0 <= i < |a| ==> c[i] == k * a[i]
    requires forall j :: 0 <= j < |a| ==> a[j] <= a[m]
    requires forall j :: m < j < |a| ==> a[j] < a[m]
    ensures forall j :: 0 <= j < |c| ==> c[j] <= c[m]
    ensures forall j :: m < j < |c| ==> c[j] < c[m]
  {
    forall j | 0 <= j < |a|
      ensures c[j] <= c[m] && (m < j ==> c[j] < c[m])
    {
      ScaleMonotone(k, a[j], a[m], c[j], c[m]);
    }
  }

  lemma ScaleMonotone(k: real, x: real, y: real, kx: real, ky: real)
    requires k > 0.0 && kx == k * x && ky == k * y
    ensures x <= y ==> kx <= ky
    ensures x < y ==> kx < ky
  {
    if x < y {
      assert ky - kx == k * (y - x);
    }
  }

  /** The placeholder rescale of `checkL2AStateStableBufferTime` never lowers
      the buffer rule's choice: at any effective level `x` at or above the
      rescaled level `e'` of the old effective level `e` the new parameters
      choose at least what the old ones chose at `e`, and exactly that at
      `x = e'`, which is where the placeholder lands unless it is clamped
      at 0. */
  lemma RescaleDecision(l: Ladder, before: Params, after: Params, e: real, x: real)
    requires WellFormedLadder(l)
    requires before.vp > 0.0 && after.vp > 0.0
    requires PeakAt(before, 1.0, MinimumBufferS) && PeakAt(after, 1.0, MinimumBufferS)
    requires x >= RescaledLevel(before, after, e)
    ensures QualityFromBufferLevel(l, before, e) <= QualityFromBufferLevel(l, after, x)
    ensures x == RescaledLevel(before, after, e) ==>
              QualityFromBufferLevel(l, before, e) == QualityFromBufferLevel(l, after, x)
  {
    RescaleKeepsScoreOrder(l, before, after, e);
    QualityMonotoneInBuffer(l, after, RescaledLevel(before, after, e), x);
  }

  // ---------------------------------------------------------------------
  // Placeholder buffer
  // ---------------------------------------------------------------------

  /** The first half of `updatePlaceholderBuffer` at time `nowMs`: the time
      since the last download finished (or, without one, since the last
      call) is credited to the placeholder buffer in seconds, never
      negatively; the call time is recorded and the segment times cleared. */
  function AccrueIdleTime(s: L2AState, nowMs: real): (r: L2AState)
    requires Valid(s) && s.Adaptive?
    ensures Valid(r) && r.Adaptive?
    ensures r.placeholderBuffer >= s.placeholderBuffer
    ensures s.lastSegmentFinishTimeMs.Some? ==>
      r.placeholderBuffer == s.placeholderBuffer + Max(0.0, 0.001 * (nowMs - s.lastSegmentFinishTimeMs.value))
    ensures s.lastSegmentFinishTimeMs.None? && s.lastCallTimeMs.Some? ==>
      r.placeholderBuffer == s.placeholderBuffer + Max(0.0, 0.001 * (nowMs - s.lastCallTimeMs.value))
    ensures s.lastSegmentFinishTimeMs.None? && s.lastCallTimeMs.None? ==> r.placeholderBuffer == s.placeholderBuffer
    ensures r == s.(placeholderBuffer := r.placeholderBuffer, lastCallTimeMs := Some(nowMs),
                    lastSegmentStart := None, lastSegmentRequestTimeMs := None, lastSegmentFinishTimeMs := None)
  {
    var since := if s.lastSegmentFinishTimeMs.Some? then s.lastSegmentFinishTimeMs else s.lastCallTimeMs;
    var credit := if since.Some? then Max(0.0, 0.001 * (nowMs - since.value)) else 0.0;
    s.(placeholderBuffer := s.placeholderBuffer + credit, lastCallTimeMs := Some(nowMs),
       lastSegmentStart := None, lastSegmentRequestTimeMs := None, lastSegmentFinishTimeMs := None)
  }

  /** Idle time is credited the same whether it is spread over several calls
      or seen in one: two calls at `t1 <= t2` after a call at `t0 <= t1`
      credit exactly `t2 - t0`. */
  lemma IdleTimeSplitsAcrossCalls(s: L2AState, t1: real, t2: real)
    requires Valid(s) && s.Adaptive?
    requires s.lastSegmentFinishTimeMs.None? && s.lastCallTimeMs.Some?
    requires s.lastCallTimeMs.value <= t1 <= t2
    ensures AccrueIdleTime(AccrueIdleTime(s, t1), t2).placeholderBuffer
         == AccrueIdleTime(s, t2).placeholderBuffer
  {
  }

  /** `updatePlaceholderBuffer`: the idle-time credit, then the stable-buffer check. */
  function UpdatePlaceholderBuffer(s: L2AState, nowMs: real, stableBufferTime: real, b: real): (r: L2AState)
    requires Valid(s) && s.Adaptive?
    ensures Valid(r) && r.Adaptive?
    ensures r.lastCallTimeMs == Some(nowMs)
    ensures r.lastSegmentStart == None && r.lastSegmentRequestTimeMs == None && r.lastSegmentFinishTimeMs == None
    ensures r.params == CalculateParameters(stableBufferTime, s.ladder).value
    ensures r.ladder == s.ladder && r.phase == s.phase && r.lastQuality == s.lastQuality
    ensures r.params == s.params ==> r.placeholderBuffer == AccrueIdleTime(s, nowMs).placeholderBuffer
    ensures r.params != s.params ==>
      r.placeholderBuffer == Max(0.0, RescaledLevel(s.params, r.params, b + AccrueIdleTime(s, nowMs).placeholderBuffer) - b)
  {
    CheckStableBufferTime(AccrueIdleTime(s, nowMs), stableBufferTime, b)
  }

  /** `checkNewSegment` at buffer level `b`: once both the fragment and its
      request metric have arrived, the placeholder decays, is trimmed so
      that the effective buffer at request time does not exceed the maximum
      buffer level of the downloaded level, and grows by the segment
      duration if the segment replaced one already buffered. The kept
      amount is the largest one under both bounds: the decayed placeholder
      and, when the finish time is known, the room left under the maximum
      buffer level. */
  function CheckNewSegment(s: L2AState, b: real): (r: L2AState)
    requires Valid(s) && s.Adaptive?
    ensures Valid(r) && r.Adaptive?
    ensures s.lastSegmentStart.None? || s.lastSegmentRequestTimeMs.None? ==> r == s
    ensures s.lastSegmentStart.Some? && s.lastSegmentRequestTimeMs.Some? ==>
      && r == s.(placeholderBuffer := r.placeholderBuffer, lastSegmentStart := None, lastSegmentRequestTimeMs := None)
      && (s.lastSegmentFinishTimeMs.Some? && !(s.lastSegmentWasReplacement && s.lastSegmentDurationS.Some?) ==>
            && r.placeholderBuffer <= PlaceholderBufferDecay * s.placeholderBuffer
            && r.placeholderBuffer <= Max(0.0, MaxBufferLevel(s.ladder, s.params, s.lastQuality)
                                             - BufferAtRequest(s, b)))
    ensures s.lastSegmentStart.Some? && s.lastSegmentRequestTimeMs.Some? ==>
      var kept := r.placeholderBuffer - ReplacementGrowth(s);
      && kept <= PlaceholderBufferDecay * s.placeholderBuffer
      && (s.lastSegmentFinishTimeMs.None? ==> kept == PlaceholderBufferDecay * s.placeholderBuffer)
      && (s.lastSegmentFinishTimeMs.Some? ==>
            && kept <= Max(0.0, MaxBufferLevel(s.ladder, s.params, s.lastQuality) - BufferAtRequest(s, b))
            && (kept == PlaceholderBufferDecay * s.placeholderBuffer
                || kept == Max(0.0, MaxBufferLevel(s.ladder, s.params, s.lastQuality) - BufferAtRequest(s, b))))
  {
    if s.lastSegmentStart.None? || s.lastSegmentRequestTimeMs.None? then s
    else
      var decayed := s.placeholderBuffer * PlaceholderBufferDecay;
      var trimmed :=
        if s.lastSegmentFinishTimeMs.Some? then
          Min(Max(0.0, MaxBufferLevel(s.ladder, s.params, s.lastQuality) - BufferAtRequest(s, b)), decayed)
        else decayed;
      s.(placeholderBuffer := trimmed + ReplacementGrowth(s), lastSegmentStart := None, lastSegmentRequestTimeMs := None)
  }

  /** Lines 361-364: a replacement segment of known duration adds that
      duration to the placeholder buffer, since it did not grow the real
      buffer. */
  function ReplacementGrowth(s: L2AState): (g: real)
    requires Valid(s) && s.Adaptive?
    ensures g >= 0.0
    ensures g > 0.0 ==> s.lastSegmentWasReplacement && s.lastSegmentDurationS == Some(g)
    ensures s.lastSegmentWasReplacement && s.lastSegmentDurationS.Some? ==> g == s.lastSegmentDurationS.value
  {
    if s.lastSegmentWasReplacement && s.lastSegmentDurationS.Some? then s.lastSegmentDurationS.value else 0.0
  }

  /** The estimate of line 353: the buffer level when the last segment was
      requested, the current level plus its download time. */
  function BufferAtRequest(s: L2AState, b: real): real
    requires s.Adaptive? && s.lastSegmentRequestTimeMs.Some? && s.lastSegmentFinishTimeMs.Some?
  {
    b + 0.001 * (s.lastSegmentFinishTimeMs.value - s.lastSegmentRequestTimeMs.value)
  }

  /** What the trim of `checkNewSegment` achieves: if the downloaded level
      was still worth downloading at request time, it still is with the
      trimmed placeholder buffer added. */
  lemma TrimKeepsLastLevelWorthDownloading(s: L2AState, b: real)
    requires Valid(s) && s.Adaptive?
    requires s.lastSegmentStart.Some? && s.lastSegmentRequestTimeMs.Some? && s.lastSegmentFinishTimeMs.Some?
    requires !(s.lastSegmentWasReplacement && s.lastSegmentDurationS.Some?)
    requires Score(s.ladder, s.params, s.lastQuality, BufferAtRequest(s, b)) >= 0.0
    ensures Score(s.ladder, s.params, s.lastQuality,
                  BufferAtRequest(s, b) + CheckNewSegment(s, b).placeholderBuffer) >= 0.0
  {
    ScoreNonNegativeIffBelowMax(s.ladder, s.params, s.lastQuality, BufferAtRequest(s, b));
    ScoreNonNegativeIffBelowMax(s.ladder, s.params, s.lastQuality,
                                BufferAtRequest(s, b) + CheckNewSegment(s, b).placeholderBuffer);
  }

  // ---------------------------------------------------------------------
  // Event handlers
  // ---------------------------------------------------------------------

  /** `onMediaFragmentLoaded` for a segment starting at `start` of the given
      duration and level: a segment is a replacement unless it starts after
      every segment seen since the last seek. */
  function OnMediaFragmentLoaded(s: L2AState, start: real, duration: real, quality: nat, b: real): (r: L2AState)
    requires Valid(s)
    requires s.Adaptive? ==> quality < Count(s.ladder)
    requires duration >= 0.0
    ensures Valid(r)
    ensures s.OneBitrate? ==> r == s
    ensures s.Adaptive? ==>
      && r.Adaptive?
      && r.lastQuality == quality
      && r.lastSegmentDurationS == Some(duration)
      && r.lastSegmentWasReplacement == (s.mostAdvancedSegmentStart.Some? && start <= s.mostAdvancedSegmentStart.value)
      && r.mostAdvancedSegmentStart == Some(if s.mostAdvancedSegmentStart.Some?
                                            then Max(s.mostAdvancedSegmentStart.value, start) else start)
      && r == s.(lastQuality := quality, lastSegmentDurationS := Some(duration),
                 lastSegmentWasReplacement := r.lastSegmentWasReplacement,
                 mostAdvancedSegmentStart := r.mostAdvancedSegmentStart,
                 lastSegmentStart := r.lastSegmentStart, lastSegmentRequestTimeMs := r.lastSegmentRequestTimeMs,
                 placeholderBuffer := r.placeholderBuffer)
    ensures s.Adaptive? && s.lastSegmentRequestTimeMs.None? ==>
      r.lastSegmentStart == Some(start) && r.placeholderBuffer == s.placeholderBuffer
    ensures s.Adaptive? && s.lastSegmentRequestTimeMs.Some? ==>
      && r.lastSegmentStart.None? && r.lastSegmentRequestTimeMs.None?
      && r.placeholderBuffer
         == CheckNewSegment(s.(mostAdvancedSegmentStart := r.mostAdvancedSegmentStart,
                               lastSegmentWasReplacement := r.lastSegmentWasReplacement,
                               lastSegmentStart := Some(start), lastSegmentDurationS := Some(duration),
                               lastQuality := quality), b).placeholderBuffer
  {
    if s.OneBitrate? then s
    else
      var advances := s.mostAdvancedSegmentStart.None? || start > s.mostAdvancedSegmentStart.value;
      var s1 := s.(mostAdvancedSegmentStart := if advances then Some(start) else s.mostAdvancedSegmentStart,
                   lastSegmentWasReplacement := !advances,
                   lastSegmentStart := Some(start), lastSegmentDurationS := Some(duration),
                   lastQuality := quality);
      CheckNewSegment(s1, b)
  }

  /** `onMetricAdded` for the HTTP request of a media segment. */
  function OnMetricAdded(s: L2AState, requestMs: real, finishMs: real, b: real): (r: L2AState)
    requires Valid(s)
    ensures Valid(r)
    ensures s.OneBitrate? ==> r == s
    ensures s.Adaptive? ==> r.Adaptive? && r.lastSegmentFinishTimeMs == Some(finishMs)
    ensures s.Adaptive? && s.lastSegmentStart.Some? ==>
      && r.lastSegmentStart.None? && r.lastSegmentRequestTimeMs.None?
      && r.placeholderBuffer
         == CheckNewSegment(s.(lastSegmentRequestTimeMs := Some(requestMs),
                               lastSegmentFinishTimeMs := Some(finishMs)), b).placeholderBuffer
    ensures s.Adaptive? && s.lastSegmentStart.None? ==>
      r.lastSegmentRequestTimeMs == Some(requestMs) && r.placeholderBuffer == s.placeholderBuffer
    ensures s.Adaptive? ==>
      r == s.(lastSegmentFinishTimeMs := Some(finishMs), lastSegmentRequestTimeMs := r.lastSegmentRequestTimeMs,
              lastSegmentStart := r.lastSegmentStart, placeholderBuffer := r.placeholderBuffer)
  {
    if s.OneBitrate? then s
    else CheckNewSegment(s.(lastSegmentRequestTimeMs := Some(requestMs), lastSegmentFinishTimeMs := Some(finishMs)), b)
  }

  /** The two notifications of one download may arrive in either order: the
      segment is accounted for once, by whichever arrives second, and the
      resulting state is the same. */
  lemma SegmentEventsCommute(s: L2AState, start: real, duration: real, quality: nat,
                             requestMs: real, finishMs: real, b: real)
    requires Valid(s) && s.Adaptive?
    requires quality < Count(s.ladder) && duration >= 0.0
    requires s.lastSegmentStart.None? && s.lastSegmentRequestTimeMs.None?
    ensures OnMetricAdded(OnMediaFragmentLoaded(s, start, duration, quality, b), requestMs, finishMs, b)
         == OnMediaFragmentLoaded(OnMetricAdded(s, requestMs, finishMs, b), start, duration, quality, b)
  {
  }

  /** `onQualityChangeRequested`: remember the level the controller chose. */
  function OnQualityChangeRequested(s: L2AState, newQuality: nat): (r: L2AState)
    requires Valid(s)
    requires s.Adaptive? ==> newQuality < Count(s.ladder)
    ensures Valid(r)
    ensures s.OneBitrate? ==> r == s
    ensures s.Adaptive? ==> r == s.(abrQuality := Some(newQuality))
  {
    if s.OneBitrate? then s else s.(abrQuality := Some(newQuality))
  }

  /** The effective buffer level `onFragmentLoadingAbandoned` deflates to:
      where the buffer rule just prefers the requested level over the lower
      ones, or 10 s when the lowest level (or none) was requested. */
  function AbandonTarget(s: L2AState): (want: real)
    requires Valid(s) && s.Adaptive?
    ensures want >= 0.0
    ensures s.abrQuality.Some? && s.abrQuality.value > 0 ==> want == MinBufferLevel(s.ladder, s.params, s.abrQuality.value)
    ensures !(s.abrQuality.Some? && s.abrQuality.value > 0) ==> want == MinimumBufferS
  {
    if s.abrQuality.Some? && s.abrQuality.value > 0 then MinBufferLevel(s.ladder, s.params, s.abrQuality.value)
    else MinimumBufferS
  }

  /** `onFragmentLoadingAbandoned` at buffer level `b`: the placeholder is
      deflated so that the effective buffer does not exceed the target
      (unless the real buffer alone already does); it never grows. */
  function OnFragmentLoadingAbandoned(s: L2AState, b: real): (r: L2AState)
    requires Valid(s)
    ensures Valid(r)
    ensures s.OneBitrate? ==> r == s
    ensures s.Adaptive? ==>
      && r.Adaptive?
      && r == s.(placeholderBuffer := r.placeholderBuffer)
      && r.placeholderBuffer <= s.placeholderBuffer
      && b + r.placeholderBuffer <= Max(b, AbandonTarget(s))
      && (r.placeholderBuffer == s.placeholderBuffer || b + r.placeholderBuffer == Max(b, AbandonTarget(s)))
  {
    if s.OneBitrate? then s
    else s.(placeholderBuffer := Min(s.placeholderBuffer, Max(0.0, AbandonTarget(s) - b)))
  }

  /** `onBufferEmpty` for one media type: a rebuffer drops the placeholder of
      a STEADY state. */
  function OnBufferEmpty(s: L2AState): (r: L2AState)
    requires Valid(s)
    ensures Valid(r)
    ensures s.Adaptive? && s.phase == Steady ==> r == s.(placeholderBuffer := 0.0)
    ensures !(s.Adaptive? && s.phase == Steady) ==> r == s
  {
    if s.Adaptive? && s.phase == Steady then s.(placeholderBuffer := 0.0) else s
  }

  /** `onPlaybackSeeking` for one media type: back to STARTUP with the
      segment history cleared. */
  function OnSeek(s: L2AState): (r: L2AState)
    requires Valid(s)
    ensures Valid(r)
    ensures s.OneBitrate? ==> r == s
    ensures s.Adaptive? ==> r.Adaptive? && r.phase == Startup && Cleared(r)
    ensures s.Adaptive? ==> r.ladder == s.ladder && r.params == s.params && r.lastQuality == s.lastQuality
    ensures s.Adaptive? ==>
      r == s.(phase := Startup, placeholderBuffer := r.placeholderBuffer,
              mostAdvancedSegmentStart := r.mostAdvancedSegmentStart,
              lastSegmentWasReplacement := r.lastSegmentWasReplacement,
              lastSegmentStart := r.lastSegmentStart, lastSegmentDurationS := r.lastSegmentDurationS,
              lastSegmentRequestTimeMs := r.lastSegmentRequestTimeMs,
              lastSegmentFinishTimeMs := r.lastSegmentFinishTimeMs)
  {
    if s.OneBitrate? then s else ClearOnSeek(s.(phase := Startup))
  }

  /** Seeking twice is seeking once. */
  lemma OnSeekIdempotent(s: L2AState)
    requires Valid(s)
    ensures OnSeek(OnSeek(s)) == OnSeek(s)
  {
  }

  // ---------------------------------------------------------------------
  // getMaxIndex, per state
  // ---------------------------------------------------------------------

  /** The STARTUP case of `getMaxIndex` with the throughput-based level `q`:
      the placeholder buffer is seeded with the least amount that lifts the
      effective buffer to `minBufferLevelForQuality(q)`, and the state moves
      to STEADY once the buffer holds a whole segment. */
  function StartupStep(s: L2AState, q: nat, b: real): (r: L2AState)
    requires Valid(s) && s.Adaptive? && s.phase == Startup
    requires q < Count(s.ladder)
    ensures Valid(r) && r.Adaptive?
    ensures r.lastQuality == q
    ensures r.placeholderBuffer >= 0.0 && b + r.placeholderBuffer >= MinBufferLevel(s.ladder, s.params, q)
    ensures r.placeholderBuffer == 0.0 || b + r.placeholderBuffer == MinBufferLevel(s.ladder, s.params, q)
    ensures r.phase == Steady <==> s.lastSegmentDurationS.Some? && b >= s.lastSegmentDurationS.value
    ensures r == s.(phase := r.phase, placeholderBuffer := r.placeholderBuffer, lastQuality := q)
  {
    var steady := s.lastSegmentDurationS.Some? && b >= s.lastSegmentDurationS.value;
    s.(phase := if steady then Steady else Startup,
       placeholderBuffer := Max(0.0, MinBufferLevel(s.ladder, s.params, q) - b),
       lastQuality := q)
  }

  /** The "L2A-O" clamp of lines 673-680: a rise above both the last level
      and the throughput-based level `qt` is cut back to the larger of the
      two. */
  function Clamp(q: nat, last: nat, qt: nat): (r: nat)
    ensures r <= q
    ensures r == q || r == if qt >= last then qt else last
    ensures r == q <==> q <= last || q <= qt
  {
    if q > last && q > qt then (if qt >= last then qt else last) else q
  }

  /** The clamp in closed form: the smaller of `q` and `max(qt, last)`. */
  lemma ClampIsMinOfMax(q: nat, last: nat, qt: nat)
    ensures Clamp(q, last, qt) as real == Min(q as real, Max(qt as real, last as real))
  {
  }

  /** The outcome of the delay computation: the new placeholder buffer and
      the delay (s) before the next download. */
  datatype Split = Split(placeholderBuffer: real, delayS: real)

  /** Lines 684-700 at buffer level `b` with placeholder `ph` and maximum
      buffer level `m` of the chosen level: the excess of the effective
      buffer over `m` is first taken out of the placeholder, and only the
      rest becomes a delay, which is dropped at the top level. */
  function DelaySplit(ph: real, b: real, m: real, belowTop: bool): (r: Split)
    requires ph >= 0.0
    ensures r.placeholderBuffer >= 0.0 && r.delayS >= 0.0
    ensures r.placeholderBuffer <= ph
    ensures b + r.placeholderBuffer == Min(b + ph, Max(b, m))
    ensures r.delayS == if belowTop then Max(0.0, b - m) else 0.0
  {
    var delay := Max(0.0, b + ph - m);
    if delay <= ph then Split(ph - delay, 0.0)
    else Split(0.0, if belowTop then delay - ph else 0.0)
  }

  /** After the split the effective buffer no longer exceeds the maximum
      buffer level of the chosen level unless the real buffer alone does:
      the chosen level is still worth downloading whenever it was at the
      real buffer level. */
  lemma DelaySplitKeepsLevelWorthDownloading(s: L2AState, q: nat, b: real, belowTop: bool)
    requires Valid(s) && s.Adaptive? && q < Count(s.ladder)
    requires Score(s.ladder, s.params, q, b) >= 0.0
    ensures Score(s.ladder, s.params, q,
                  b + DelaySplit(s.placeholderBuffer, b, MaxBufferLevel(s.ladder, s.params, q), belowTop).placeholderBuffer)
            >= 0.0
  {
    ScoreNonNegativeIffBelowMax(s.ladder, s.params, q, b);
    ScoreNonNegativeIffBelowMax(s.ladder, s.params, q,
      b + DelaySplit(s.placeholderBuffer, b, MaxBufferLevel(s.ladder, s.params, q), belowTop).placeholderBuffer);
  }
}

=== FILE: optimizer.dfy ===
/** The drift-plus-penalty step of the STEADY case of `getMaxIndex` (lines
    574-656): a gradient step on the bitrate weights `w`, their projection
    onto the probability simplex, the update of the virtual queue `Q1`, and
    the choice of the level whose rate is nearest the weighted rate. The
    weights and the queue are module-level variables of the rule, shared by
    every media type. Rates are converted to Mbps and the throughput to
    Mbps, as the code does. */
module Optimizer {
  import opened Vectors
  import opened Simplex

  /** `horizon`. */
  const Horizon: real := 5.0

  /** `VL = Math.pow(horizon, 0.5)`, the double nearest to the square root of 5. */
  const VL: real := 2.23606797749979

  /** `alpha = Math.max(horizon, VL * Math.sqrt(horizon))`: the larger of 5
      and the square of the square root of 5, that is 5. */
  const Alpha: real := 5.0

  /** `B_target`. */
  const BTarget: real := 0.5

  /** The weight every level starts with (`w[i] = prev_w[i] = 0.33`). */
  const InitialWeight: real := 0.33

  /** The shared variables `w`, `prev_w` and `Q1`. */
  datatype OptimizerState = OptimizerState(w: seq<real>, prevW: seq<real>, q1: real)

  /** Their values when the script is loaded. */
  const Unseeded: OptimizerState := OptimizerState([], [], 0.0)

  /** The shared record is usable for a ladder of `n` levels: `w` and
      `prev_w` have the same length, which is 0 (not yet seeded) or at least
      `n`, and the queue is non-negative. */
  predicate Fits(o: OptimizerState, n: nat)
  {
    && |o.prevW| == |o.w|
    && (|o.w| == 0 || |o.w| >= n)
    && o.q1 >= 0.0
  }

  /** Lines 586-603: on first use the weights get `n` entries of 0.33 and the
      queue restarts at 0. */
  function Seed(o: OptimizerState, n: nat): (r: OptimizerState)
    requires Fits(o, n)
    ensures Fits(r, n)
    ensures |o.w| > 0 ==> r == o
    ensures |o.w| == 0 ==> |r.w| == n && r.q1 == 0.0
    ensures |o.w| == 0 ==> forall i :: 0 <= i < n ==> r.w[i] == InitialWeight && r.prevW[i] == InitialWeight
  {
    if |o.w| == 0 then
      OptimizerState(seq(n, i => InitialWeight), seq(n, i => InitialWeight), 0.0)
    else o
  }

  /** `bitrates[i] / (1000 * 1000)`: the rates in Mbps. */
  function Mbps(rates: seq<real>): (m: seq<real>)
    ensures |m| == |rates|
    ensures forall i :: 0 <= i < |rates| ==> m[i] * 1000000.0 == rates[i]
    ensures forall i :: 0 <= i < |rates| ==> m[i] == rates[i] / 1000000.0
  {
    seq(|rates|, i requires 0 <= i < |rates| => rates[i] / 1000000.0)
  }

  /** Positive rates ascending in bps are positive and ascending in Mbps. */
  lemma MbpsKeepsOrder(rates: seq<real>)
    requires forall i :: 0 <= i < |rates| ==> rates[i] > 0.0
    requires forall i, j :: 0 <= i < j < |rates| ==> rates[i] < rates[j]
    ensures forall i :: 0 <= i < |rates| ==> Mbps(rates)[i] > 0.0
    ensures forall i, j :: 0 <= i < j < |rates| ==> Mbps(rates)[i] < Mbps(rates)[j]
  {
  }

  /** `Math.min(2 * bitrates[N-1], c_throughput)` with the top rate in Mbps:
      the normalizer of the queue update (line 637), and of the top level in
      the gradient loop (line 608). */
  function Cap(rM: seq<real>, c: real): (k: real)
    requires |rM| >= 1 && rM[|rM| - 1] > 0.0 && c > 0.0
    ensures k > 0.0 && k <= c && k <= 2.0 * rM[|rM| - 1]
    ensures k == c || k == 2.0 * rM[|rM| - 1]
  {
    Min(2.0 * rM[|rM| - 1], c)
  }

  /** A gradient step with one normalizer `cap` for every level:
      `w[i] = prev_w[i] - (1/(2α))·(r[i]/cap)·(VL - V·Q1)`. With `cap` the
      Mbps normalizer of the queue update this is the step lines 606-613
      evidently intend; `GradientStepAsWritten` is the step they take. */
  function GradientStep(prevW: seq<real>, rM: seq<real>, cap: real, v: real, q1: real): (w: seq<real>)
    requires |prevW| >= |rM| && cap > 0.0
    ensures |w| == |rM|
    ensures forall i :: 0 <= i < |rM| ==>
      w[i] == prevW[i] - (1.0 / (2.0 * Alpha)) * (rM[i] / cap) * (VL - v * q1)
  {
    seq(|rM|, i requires 0 <= i < |rM| => prevW[i] - (1.0 / (2.0 * Alpha)) * (rM[i] / cap) * (VL - v * q1))
  }

  /** The step is a gradient step on a cost linear in `r·w`: every weight
      moves by the same multiple of its level's rate, so the moves of two
      levels stand in the ratio of their rates. */
  lemma GradientStepAlongRates(prevW: seq<real>, rM: seq<real>, cap: real, v: real, q1: real, i: nat, j: nat)
    requires |prevW| >= |rM| && cap > 0.0
    requires i < |rM| && j < |rM|
    ensures (GradientStep(prevW, rM, cap, v, q1)[i] - prevW[i]) * rM[j]
         == (GradientStep(prevW, rM, cap, v, q1)[j] - prevW[j]) * rM[i]
  {
    MovesInRatio(rM[i], rM[j], (1.0 / (2.0 * Alpha)) * (VL - v * q1), cap);
  }

  lemma MovesInRatio(ri: real, rj: real, g: real, cap: real)
    requires cap > 0.0
    ensures (-(g * (ri / cap))) * rj == (-(g * (rj / cap))) * ri
  {
    assert g * (ri / cap) * rj == g * ri * rj / cap;
    assert g * (rj / cap) * ri == g * ri * rj / cap;
  }

  /** The normalizer the loop of lines 606-613 actually uses for level `i`:
      `bitrates` is converted to Mbps in place inside the loop, so for every
      level below the top `bitrates[N-1]` is still in bps and only the top
      level sees it in Mbps. */
  function CapAsWritten(rates: seq<real>, c: real, i: nat): (k: real)
    requires |rates| >= 1 && i < |rates|
    requires rates[|rates| - 1] > 0.0 && c > 0.0
    ensures k > 0.0
    ensures i < |rates| - 1 ==> k == Min(2.0 * rates[|rates| - 1], c)
    ensures i == |rates| - 1 ==> k == Cap(Mbps(rates), c)
  {
    if i < |rates| - 1 then Min(2.0 * rates[|rates| - 1], c)
    else Min(2.0 * (rates[|rates| - 1] / 1000000.0), c)
  }

  /** The gradient step of lines 606-613 as written, on the rates in bps
      and the throughput `c` in Mbps: below the top level it is the
      single-normalizer step with `min(2·topRate, c)` taken on the top rate
      in bps, and at the top level the one with the top rate in Mbps. */
  function GradientStepAsWritten(prevW: seq<real>, rates: seq<real>, c: real, v: real, q1: real): (w: seq<real>)
    requires |prevW| >= |rates| >= 1
    requires forall i :: 0 <= i < |rates| ==> rates[i] > 0.0
    requires c > 0.0
    ensures |w| == |rates|
    ensures forall i :: 0 <= i < |rates| - 1 ==>
      w[i] == GradientStep(prevW, Mbps(rates), Min(2.0 * rates[|rates| - 1], c), v, q1)[i]
    ensures w[|rates| - 1] == GradientStep(prevW, Mbps(rates), Cap(Mbps(rates), c), v, q1)[|rates| - 1]
  {
    seq(|rates|, i requires 0 <= i < |rates| => GradientStep(prevW, Mbps(rates), CapAsWritten(rates, c, i), v, q1)[i])
  }

  /** With 1 and 2 Mbps levels and 10 Mbps of throughput the levels below
      the top are normalized by 10 but the top one by 4, so the step is not
      along the rates: the top weight moves 2.5 times too far. */
  lemma GradientStepAsWrittenNotAlongRates()
    ensures (GradientStepAsWritten([0.33, 0.33], [1000000.0, 2000000.0], 10.0, 1.0, 0.0)[0] - 0.33) * 2.0
         != (GradientStepAsWritten([0.33, 0.33], [1000000.0, 2000000.0], 10.0, 1.0, 0.0)[1] - 0.33) * 1.0
  {
    assert CapAsWritten([1000000.0, 2000000.0], 10.0, 0) == 10.0;
    assert CapAsWritten([1000000.0, 2000000.0], 10.0, 1) == 4.0;
  }

  /** Whenever the throughput is above twice the top rate, the step as
      written differs from the step along the rates at every level below
      the top (provided the step is non-zero). */
  lemma GradientStepAsWrittenDiffers(prevW: seq<real>, rates: seq<real>, c: real, v: real, q1: real, i: nat)
    requires |prevW| >= |rates| >= 2
    requires forall k :: 0 <= k < |rates| ==> rates[k] > 0.0
    requires c > 2.0 * (rates[|rates| - 1] / 1000000.0)
    requires c < 2.0 * rates[|rates| - 1]
    requires VL - v * q1 != 0.0
    requires i < |rates| - 1
    ensures GradientStepAsWritten(prevW, rates, c, v, q1)[i]
         != GradientStep(prevW, Mbps(rates), Cap(Mbps(rates), c), v, q1)[i]
  {
    var rM := Mbps(rates);
    assert CapAsWritten(rates, c, i) == c;
    assert Cap(rM, c) == 2.0 * rM[|rM| - 1];
    DifferentNormalizers(rM[i], c, Cap(rM, c), (1.0 / (2.0 * Alpha)) * (VL - v * q1));
  }

  lemma DifferentNormalizers(r: real, c1: real, c2: real, g: real)
    requires r > 0.0 && c1 > c2 > 0.0 && g != 0.0
    ensures g * (r / c1) != g * (r / c2)
  {
    assert r / c1 < r / c2;
  }

  /** `dotmultiplication(bitrates, diff1)` needs the pre-projection move:
      `diff1[i] = w[i] - prev_w[i]` is taken inside the gradient loop. */
  function Move(w: seq<real>, prevW: seq<real>): (d: seq<real>)
    requires |prevW| >= |w|
    ensures |d| == |w|
    ensures forall i :: 0 <= i < |w| ==> prevW[i] + d[i] == w[i]
  {
    seq(|w|, i requires 0 <= i < |w| => w[i] - prevW[i])
  }

  /** Lines 636-641: the virtual queue grows by `V` less the normalized rate
      of the previous weights, the target drain `B_target/horizon` and the
      normalized rate of the move, never below 0; it is reset to 0 when the
      previous weights already ask for at least the throughput. */
  function QueueUpdate(q1: real, v: real, rM: seq<real>, prevW: seq<real>, diff: seq<real>, c: real, cap: real): (q: real)
    requires cap > 0.0
    ensures q >= 0.0
    ensures Dot(rM, prevW) >= c ==> q == 0.0
    ensures Dot(rM, prevW) < c ==>
      q >= q1 + v - v * Dot(prevW, rM) / cap - BTarget / Horizon - v * Dot(rM, diff) / cap
    ensures Dot(rM, prevW) < c ==>
      q == 0.0 || q == q1 + v - v * Dot(prevW, rM) / cap - BTarget / Horizon - v * Dot(rM, diff) / cap
  {
    if Dot(rM, prevW) < c then
      Max(0.0, q1 + v - v * Dot(prevW, rM) / cap - BTarget / Horizon - v * Dot(rM, diff) / cap)
    else 0.0
  }

  /** `temp[i] = |bitrates[i] - dotmultiplication(w, bitrates)|`. */
  function Distances(rM: seq<real>, target: real): (d: seq<real>)
    ensures |d| == |rM|
    ensures forall i :: 0 <= i < |rM| ==> d[i] >= 0.0
    ensures forall i :: 0 <= i < |rM| ==> d[i] == rM[i] - target || d[i] == target - rM[i]
  {
    seq(|rM|, i requires 0 <= i < |rM| => Abs(rM[i] - target))
  }

  /** `indexOfMin(temp)`: the level whose rate is nearest the weighted rate
      `dotmultiplication(w, bitrates)`, the highest such level on a tie. */
  function NearestLevel(rM: seq<real>, target: real): (q: nat)
    requires |rM| >= 1
    ensures q < |rM|
    ensures forall j :: 0 <= j < |rM| ==> Abs(rM[q] - target) <= Abs(rM[j] - target)
    ensures forall j :: q < j < |rM| ==> Abs(rM[q] - target) < Abs(rM[j] - target)
  {
    IndexOfMin(Distances(rM, target))
  }

  /** The optimizer update of one STEADY call for a ladder `rates` (bps,
      positive, ascending), average throughput `throughputKbps` and segment
      duration `v`: seed, the gradient step as written on the first `N`
      weights, projection of the whole weight vector, queue update (with
      the move `diff1` taken before the projection, `Move`), and `prev_w`
      overwritten on its first `N` entries. */
  function Advance(o: OptimizerState, rates: seq<real>, throughputKbps: real, v: real): (r: OptimizerState)
    requires |rates| >= 1
    requires forall i :: 0 <= i < |rates| ==> rates[i] > 0.0
    requires forall i, j :: 0 <= i < j < |rates| ==> rates[i] < rates[j]
    requires Fits(o, |rates|)
    requires throughputKbps > 0.0
    ensures Fits(r, |rates|)
    ensures |r.w| == |Seed(o, |rates|).w| && OnSimplex(r.w)
    ensures r.prevW[..|rates|] == r.w[..|rates|]
    ensures r.prevW[|rates|..] == Seed(o, |rates|).prevW[|rates|..]
    ensures Dot(Mbps(rates), Seed(o, |rates|).prevW) >= throughputKbps / 1000.0 ==> r.q1 == 0.0
  {
    var n := |rates|;
    var s := Seed(o, n);
    var rM := Mbps(rates);
    MbpsKeepsOrder(rates);
    var stepped := GradientStepAsWritten(s.prevW, rates, throughputKbps / 1000.0, v, s.q1);
    var w := Project(stepped + s.w[n..]);
    OptimizerState(w, w[..n] + s.prevW[n..],
                   QueueUpdate(s.q1, v, rM, s.prevW, Move(stepped, s.prevW),
                               throughputKbps / 1000.0, Cap(rM, throughputKbps / 1000.0)))
  }

  /** The three steps of `Advance`: the new weights are the Euclidean
      projection of the step as written (extended by the weights beyond the
      ladder), so no point of the simplex is nearer to that step; and `Q1`
      is the queue update driven by the move `diff1` taken before the
      projection. */
  lemma AdvanceProjectsStep(o: OptimizerState, rates: seq<real>, throughputKbps: real, v: real)
    requires |rates| >= 1
    requires forall i :: 0 <= i < |rates| ==> rates[i] > 0.0
    requires forall i, j :: 0 <= i < j < |rates| ==> rates[i] < rates[j]
    requires Fits(o, |rates|)
    requires throughputKbps > 0.0
    ensures var s := Seed(o, |rates|);
      var stepped := GradientStepAsWritten(s.prevW, rates, throughputKbps / 1000.0, v, s.q1);
      var y := stepped + s.w[|rates|..];
      var r := Advance(o, rates, throughputKbps, v);
      && r.w == Project(y)
      && (forall z :: |z| == |y| && OnSimplex(z) ==> SquaredDistance(y, r.w) <= SquaredDistance(y, z))
      && r.q1 == QueueUpdate(s.q1, v, Mbps(rates), s.prevW, Move(stepped, s.prevW),
                             throughputKbps / 1000.0, Cap(Mbps(rates), throughputKbps / 1000.0))
  {
    var s := Seed(o, |rates|);
    var stepped := GradientStepAsWritten(s.prevW, rates, throughputKbps / 1000.0, v, s.q1);
    var y := stepped + s.w[|rates|..];
    var r := Advance(o, rates, throughputKbps, v);
    assert r.w == Project(y);
    forall z | |z| == |y| && OnSimplex(z)
      ensures SquaredDistance(y, r.w) <= SquaredDistance(y, z)
    {
      ProjectionIsNearest(y, z);
    }
  }

  /** With as many weights as levels, the weighted rate the level is chosen
      against is a convex combination of the rates: it lies between the
      lowest and the highest rate. */
  lemma WeightedRateWithinLadder(w: seq<real>, rM: seq<real>)
    requires |rM| >= 1
    requires forall i, j :: 0 <= i < j < |rM| ==> rM[i] < rM[j]
    requires OnSimplex(w)
    ensures |w| == |rM| ==> rM[0] <= Dot(w, rM) <= rM[|rM| - 1]
  {
    if |w| == |rM| {
      forall i | 0 <= i < |rM|
        ensures rM[0] <= rM[i] <= rM[|rM| - 1]
      {
        if 0 < i { assert rM[0] < rM[i]; }
        if i < |rM| - 1 { assert rM[i] < rM[|rM| - 1]; }
      }
      DotOfDistributionWithinRange(w, rM, rM[0], rM[|rM| - 1]);
    }
  }

  /** A weighted rate inside the ladder is never farther from the chosen
      level than half the widest gap between neighbouring levels. */
  lemma NearestLevelWithinHalfGap(rM: seq<real>, target: real, gap: real)
    requires |rM| >= 1
    requires forall i, j :: 0 <= i < j < |rM| ==> rM[i] < rM[j]
    requires gap >= 0.0 && forall i :: 0 <= i < |rM| - 1 ==> rM[i + 1] - rM[i] <= gap
    requires rM[0] <= target <= rM[|rM| - 1]
    ensures 2.0 * Abs(rM[NearestLevel(rM, target)] - target) <= gap
  {
    var k := Bracket(rM, target, 0);
    var q := NearestLevel(rM, target);
    if k == |rM| - 1 {
      assert Abs(rM[q] - target) <= Abs(rM[k] - target);
    } else {
      assert rM[k + 1] - rM[k] <= gap;
      HalfGap(rM[k], rM[k + 1], target, gap, Abs(rM[q] - target));
    }
  }

  lemma HalfGap(a: real, b: real, t: real, gap: real, d: real)
    requires a <= t <= b && b - a <= gap
    requires d <= Abs(a - t) && d <= Abs(b - t)
    ensures 2.0 * d <= gap
  {
  }

  /** An index `k` with `rM[k] <= target`, and `target <= rM[k+1]` unless `k`
      is the top level (where then `target == rM[k]`). */
  function Bracket(rM: seq<real>, target: real, k: nat): (b: nat)
    requires k < |rM|
    requires rM[k] <= target <= rM[|rM| - 1]
    ensures k <= b < |rM|
    ensures rM[b] <= target
    ensures b < |rM| - 1 ==> target <= rM[b + 1]
    ensures b == |rM| - 1 ==> target == rM[b]
    decreases |rM| - k
  {
    if k == |rM| - 1 then k
    else if target <= rM[k + 1] then k
    else Bracket(rM, target, k + 1)
  }
}

=== FILE: parameters.dfy ===
/** The bitrate ladder of one media type and the two L2A parameters `gp`
    and `Vp` derived from it (`calculateL2AParameters`). */
module Parameters {
  import opened Wrappers
  import opened Vectors

  /** `MINIMUM_BUFFER_S`: below this buffer level L2A never adds delay. */
  const MinimumBufferS: real := 10.0

  /** `MINIMUM_BUFFER_PER_BITRATE_LEVEL_S`. */
  const MinimumBufferPerBitrateLevelS: real := 2.0

  /** The encoded bitrates (bps, ascending) of a media type and their
      normalized utilities. */
  datatype Ladder = Ladder(bitrates: seq<real>, utilities: seq<real>)

  datatype Params = Params(gp: real, vp: real)

  predicate StrictlyIncreasing(a: seq<real>)
  {
    forall i, j :: 0 <= i < j < |a| ==> a[i] < a[j]
  }

  /** What the buffer rule needs of a ladder: one utility per bitrate and
      positive, strictly ascending bitrates (the order of the manifest's
      bitrate list). The utilities may be arbitrary. */
  predicate WellFormedLadder(l: Ladder)
  {
    && |l.bitrates| == |l.utilities| >= 1
    && (forall i :: 0 <= i < |l.bitrates| ==> l.bitrates[i] > 0.0)
    && StrictlyIncreasing(l.bitrates)
  }

  /** A ladder as `getInitialL2AState` builds it from the default utilities:
      these are logarithms of the bitrates, so they ascend with them, and
      they are shifted so the first is 1. */
  predicate ValidLadder(l: Ladder)
  {
    && WellFormedLadder(l)
    && StrictlyIncreasing(l.utilities)
    && l.utilities[0] == 1.0
  }

  /** No utility is negative; true of the default utilities, which ascend
      from 1. */
  predicate NonNegativeUtilities(l: Ladder)
  {
    forall i :: 0 <= i < |l.utilities| ==> l.utilities[i] >= 0.0
  }

  function Count(l: Ladder): nat
  {
    |l.bitrates|
  }

  /** The normalization of line 131: every utility shifted by the same
      amount so that the first one becomes 1. */
  function Normalize(raw: seq<real>): (u: seq<real>)
    ensures |u| == |raw|
    ensures |raw| > 0 ==> u[0] == 1.0
    ensures forall i, j :: 0 <= i < |raw| && 0 <= j < |raw| ==> u[i] - u[j] == raw[i] - raw[j]
  {
    if |raw| == 0 then []
    else seq(|raw|, i requires 0 <= i < |raw| => raw[i] - raw[0] + 1.0)
  }

  lemma NormalizeKeepsOrder(raw: seq<real>)
    requires StrictlyIncreasing(raw)
    ensures StrictlyIncreasing(Normalize(raw))
  {
  }

  /** `bufferTime`: the stable buffer time, but at least 10 s plus 2 s per
      bitrate level. */
  function BufferTarget(stableBufferTime: real, levels: nat): (t: real)
    ensures t >= stableBufferTime
    ensures t >= MinimumBufferS + MinimumBufferPerBitrateLevelS * (levels as real)
    ensures t == stableBufferTime || t == MinimumBufferS + MinimumBufferPerBitrateLevelS * (levels as real)
  {
    Max(stableBufferTime, MinimumBufferS + MinimumBufferPerBitrateLevelS * (levels as real))
  }

  /** `calculateL2AParameters`: `None` (JS `null`) when no utility exceeds
      the first one, otherwise the `gp`, `Vp` that put the score maxima of
      the lowest level at 10 s and of the first best level at the buffer
      target. */
  function CalculateParameters(stableBufferTime: real, l: Ladder): (r: Option<Params>)
    requires |l.utilities| == |l.bitrates|
    requires |l.utilities| > 0 ==> l.utilities[0] == 1.0
    ensures r.None? <==> forall i :: 0 <= i < |l.utilities| ==> l.utilities[i] <= l.utilities[0]
    ensures r.Some? ==> r.value.gp > 0.0 && r.value.vp > 0.0
    ensures r.Some? ==> PeakAt(r.value, 1.0, MinimumBufferS)
    ensures r.Some? ==> PeakAt(r.value, TopUtility(l.utilities), BufferTarget(stableBufferTime, Count(l)))
  {
    if FirstIndexOfMax(l.utilities) == 0 then None
    else Some(ParamsFor(TopUtility(l.utilities), BufferTarget(stableBufferTime, Count(l))))
  }

  /** `utilities[highestUtilityIndex]`: the largest utility of the ladder
      (the first level that reaches it, line 105). */
  function TopUtility(u: seq<real>): (m: real)
    requires |u| > 0
    ensures m in u
    ensures forall i :: 0 <= i < |u| ==> u[i] <= m
  {
    u[FirstIndexOfMax(u)]
  }

  /** A level of (normalized) utility `u` has its score maximum at buffer
      level `level`: `Vp·(u + gp - 1) = level` (the comment of lines 115-117). */
  predicate PeakAt(p: Params, u: real, level: real)
  {
    p.vp * (u + p.gp - 1.0) == level
  }

  /** The two expressions of lines 119-120 for a top utility `uh > 1` and a
      target `T > 10`: `gp = (uh - 1) / (T/10 - 1)` and `Vp = 10 / gp`. */
  function ParamsFor(uh: real, target: real): (p: Params)
    requires uh > 1.0
    requires target > MinimumBufferS
    ensures p.gp > 0.0 && p.vp > 0.0
    ensures PeakAt(p, 1.0, MinimumBufferS)
    ensures PeakAt(p, uh, target)
  {
    ParameterIdentities(uh, target, (uh - 1.0) / (target / MinimumBufferS - 1.0),
                        MinimumBufferS / ((uh - 1.0) / (target / MinimumBufferS - 1.0)));
    Params((uh - 1.0) / (target / MinimumBufferS - 1.0),
           MinimumBufferS / ((uh - 1.0) / (target / MinimumBufferS - 1.0)))
  }

  /** The algebra behind `calculateL2AParameters`: `Vp·gp = 10` and
      `Vp·(uh + gp - 1) = T`. */
  lemma ParameterIdentities(uh: real, target: real, gp: real, vp: real)
    requires uh > 1.0
    requires target > MinimumBufferS
    requires gp == (uh - 1.0) / (target / MinimumBufferS - 1.0)
    requires vp == MinimumBufferS / gp
    ensures gp > 0.0 && vp > 0.0
    ensures vp * gp == MinimumBufferS
    ensures vp * (uh + gp - 1.0) == target
  {
    var d := target / MinimumBufferS - 1.0;
    assert d > 0.0;
    assert gp * d == uh - 1.0;
    assert vp * gp == MinimumBufferS;
    calc {
      vp * (uh + gp - 1.0);
      vp * (gp * d) + vp * gp;
      (vp * gp) * d + vp * gp;
      MinimumBufferS * d + MinimumBufferS;
      target;
    }
  }

  /** The two anchoring conditions fix the parameters: any `gp`, `Vp` that
      put the lowest level's peak at 10 s and the best level's peak at the
      buffer target are the ones `calculateL2AParameters` returns. */
  lemma ParametersUnique(stableBufferTime: real, l: Ladder, q: Params)
    requires |l.utilities| == |l.bitrates|
    requires |l.utilities| > 0 ==> l.utilities[0] == 1.0
    requires CalculateParameters(stableBufferTime, l).Some?
    ensures PeakAt(q, 1.0, MinimumBufferS)
              && PeakAt(q, TopUtility(l.utilities), BufferTarget(stableBufferTime, Count(l)))
            <==> q == CalculateParameters(stableBufferTime, l).value
  {
    if PeakAt(q, 1.0, MinimumBufferS)
       && PeakAt(q, TopUtility(l.utilities), BufferTarget(stableBufferTime, Count(l))) {
      PeaksDetermineParams(CalculateParameters(stableBufferTime, l).value, q,
                           TopUtility(l.utilities), BufferTarget(stableBufferTime, Count(l)));
    }
  }

  lemma PeaksDetermineParams(p: Params, q: Params, uh: real, target: real)
    requires uh > 1.0
    requires PeakAt(p, 1.0, MinimumBufferS) && PeakAt(q, 1.0, MinimumBufferS)
    requires PeakAt(p, uh, target) && PeakAt(q, uh, target)
    ensures p == q
  {
    assert p.vp * (uh - 1.0) == target - MinimumBufferS;
    assert q.vp * (uh - 1.0) == target - MinimumBufferS;
    assert (p.vp - q.vp) * (uh - 1.0) == 0.0;
    ZeroFactor(p.vp - q.vp, uh - 1.0);
    assert p.vp * (p.gp - q.gp) == 0.0;
    assert p.vp != 0.0;
    ZeroFactor(p.gp - q.gp, p.vp);
  }

  lemma ZeroFactor(a: real, b: real)
    requires a * b == 0.0 && b != 0.0
    ensures a == 0.0
  {
    assert a == (a * b) / b;
  }

  /** On a valid ladder the parameters are missing exactly when there is a
      single bitrate level (the comment at line 136). */
  lemma NoParametersIffOneLevel(stableBufferTime: real, l: Ladder)
    requires ValidLadder(l)
    ensures CalculateParameters(stableBufferTime, l).None? <==> Count(l) == 1
  {
    if Count(l) > 1 {
      assert l.utilities[1] > l.utilities[0];
    }
  }

  /** On a valid ladder the best utility is the last one. */
  lemma BestLevelIsTop(l: Ladder)
    requires ValidLadder(l)
    ensures FirstIndexOfMax(l.utilities) == Count(l) - 1
  {
    assert l.utilities[Count(l) - 1] <= l.utilities[FirstIndexOfMax(l.utilities)];
  }
}

=== FILE: simplex.dfy ===
/** `Euclidean_projection`: the projection of a real vector onto the
    probability simplex by the sort-and-threshold algorithm of Chen and Ye
    ("Projection Onto A Simplex", arXiv:1101.6081). */
module Simplex {
  import opened Vectors

  /** A probability vector: non-negative entries summing to one. */
  ghost predicate OnSimplex(x: seq<real>)
  {
    && (forall i :: 0 <= i < |x| ==> x[i] >= 0.0)
    && Sum(x) == 1.0
  }

  predicate SortedDescending(s: seq<real>)
  {
    forall i, j :: 0 <= i < j < |s| ==> s[i] >= s[j]
  }

  /** An entry no smaller than the head of a descending sequence can be
      put in front of it. */
  lemma PrependSorted(h: real, t: seq<real>)
    requires SortedDescending(t)
    requires |t| > 0 ==> h >= t[0]
    ensures SortedDescending([h] + t)
  {
    forall i, j | 0 <= i < j < |[h] + t|
      ensures ([h] + t)[i] >= ([h] + t)[j]
    {
      if i > 0 {
        assert ([h] + t)[i] == t[i - 1];
      }
    }
  }

  /** Inserts `x` into a descending sequence, keeping it descending. */
  function Insert(x: real, s: seq<real>): (r: seq<real>)
    requires SortedDescending(s)
    ensures |r| == |s| + 1
    ensures multiset(r) == multiset(s) + multiset{x}
    ensures SortedDescending(r)
    ensures r[0] == x || (|s| > 0 && r[0] == s[0])
  {
    if |s| == 0 then [x]
    else if x >= s[0] then
      PrependSorted(x, s);
      [x] + s
    else
      assert s == [s[0]] + s[1..];
      var t := Insert(x, s[1..]);
      PrependSorted(s[0], t);
      [s[0]] + t
  }

  /** `arr.sort(function(a, b){return b-a})`: the entries in descending order. */
  function SortDescending(a: seq<real>): (s: seq<real>)
    ensures |s| == |a|
    ensures multiset(s) == multiset(a)
    ensures SortedDescending(s)
  {
    if |a| == 0 then []
    else
      assert a == [a[0]] + a[1..];
      Insert(a[0], SortDescending(a[1..]))
  }

  /** `tmax` once the first `k` sorted entries are accumulated: the shift that
      would make those `k` entries sum to one. */
  function Candidate(s: seq<real>, k: nat): real
    requires 1 <= k <= |s|
  {
    (Sum(s[..k]) - 1.0) / (k as real)
  }

  /** The scan of lines 470-486 from count `k` on: the first count `n` in
      `[k, |s|)` whose candidate reaches the next sorted entry, or `|s|` when
      the loop runs to the end without `break`. */
  function Cutoff(s: seq<real>, k: nat): (n: nat)
    requires 1 <= k <= |s|
    requires forall j {:trigger Candidate(s, j)} :: 1 <= j < k ==> Candidate(s, j) < s[j]
    ensures k <= n <= |s|
    ensures forall j {:trigger Candidate(s, j)} :: 1 <= j < n ==> Candidate(s, j) < s[j]
    ensures n < |s| ==> Candidate(s, n) >= s[n]
    decreases |s| - k
  {
    if k == |s| then k
    else if Candidate(s, k) >= s[k] then k
    else Cutoff(s, k + 1)
  }

  /** The threshold `tmax` the projection subtracts. */
  function Threshold(y: seq<real>): real
    requires |y| >= 1
  {
    var s := SortDescending(y);
    Candidate(s, Cutoff(s, 1))
  }

  /** Every entry shifted down by `t` and clipped at zero. */
  function Clip(y: seq<real>, t: real): (x: seq<real>)
    ensures |x| == |y|
    ensures forall i :: 0 <= i < |y| ==> x[i] == Max(y[i] - t, 0.0)
  {
    seq(|y|, i requires 0 <= i < |y| => Max(y[i] - t, 0.0))
  }

  /** What clipping at `t` leaves: no negative entry, a positive entry
      exactly where the input is above `t`, and every positive entry
      lowered by exactly `t`. */
  lemma ClipLowersByCut(y: seq<real>, t: real)
    ensures forall i :: 0 <= i < |y| ==> Clip(y, t)[i] >= 0.0
    ensures forall i :: 0 <= i < |y| ==> (Clip(y, t)[i] > 0.0 <==> y[i] > t)
    ensures forall i :: 0 <= i < |y| && Clip(y, t)[i] > 0.0 ==> y[i] - Clip(y, t)[i] == t
  {
  }

  /** Clipping keeps the order of any two entries. */
  lemma ClipKeepsOrder(y: seq<real>, t: real, i: nat, j: nat)
    requires i < |y| && j < |y| && y[i] <= y[j]
    ensures Clip(y, t)[i] <= Clip(y, t)[j]
  {
  }

  /** `Euclidean_projection(arr)`: the threshold is computed on a sorted copy
      and subtracted from the entries in their original order. */
  function Project(y: seq<real>): (x: seq<real>)
    ensures |x| == |y|
    ensures |y| >= 1 ==> OnSimplex(x)
  {
    if |y| == 0 then []
    else
      ProjectionSumsToOne(y);
      Clip(y, Threshold(y))
  }

  /** Adding one more entry `x` to a prefix whose shifted mean lies below `x`
      keeps the shifted mean below `x`. */
  lemma ShiftedMeanStep(total: real, x: real, m: real)
    requires m >= 1.0
    requires (total - 1.0) / m < x
    ensures (total + x - 1.0) / (m + 1.0) < x
  {
    var c := (total - 1.0) / m;
    assert c * m == total - 1.0;
    assert c * m < x * m;
    var d := (total + x - 1.0) / (m + 1.0);
    assert d * (m + 1.0) == total + x - 1.0;
    assert d * (m + 1.0) < x * (m + 1.0);
  }

  /** The last sorted entry counted before the cutoff lies above the candidate. */
  lemma LastCountedAboveCandidate(s: seq<real>, n: nat)
    requires 1 <= n <= |s|
    requires forall j {:trigger Candidate(s, j)} :: 1 <= j < n ==> Candidate(s, j) < s[j]
    ensures s[n - 1] > Candidate(s, n)
  {
    assert s[..n] == s[..n - 1] + [s[n - 1]];
    SumConcat(s[..n - 1], [s[n - 1]]);
    assert Sum([s[n - 1]]) == s[n - 1] by {
      assert [s[n - 1]][..0] == [];
    }
    if n == 1 {
      assert s[..0] == [];
    } else {
      assert Candidate(s, n - 1) < s[n - 1];
      ShiftedMeanStep(Sum(s[..n - 1]), s[n - 1], (n - 1) as real);
    }
  }

  /** The sorted entries counted before the cutoff `n` lie strictly above
      the threshold `t` of that cutoff. */
  lemma CountedAboveThreshold(s: seq<real>, n: nat, t: real)
    requires SortedDescending(s)
    requires 1 <= n <= |s|
    requires forall j {:trigger Candidate(s, j)} :: 1 <= j < n ==> Candidate(s, j) < s[j]
    requires t == Candidate(s, n)
    ensures forall i :: 0 <= i < n ==> s[i] > t
  {
    LastCountedAboveCandidate(s, n);
    assert forall i :: 0 <= i < n ==> s[i] >= s[n - 1];
  }

  /** The sorted entries from the cutoff `n` on lie at or below its threshold. */
  lemma UncountedBelowThreshold(s: seq<real>, n: nat, t: real)
    requires SortedDescending(s)
    requires n <= |s|
    requires n < |s| ==> t >= s[n]
    ensures forall i :: n <= i < |s| ==> s[i] <= t
  {
    if n < |s| {
      assert forall i :: n <= i < |s| ==> s[i] <= s[n];
    }
  }

  /** `k·t` written as `k` repeated additions of `t`, so that the counting
      arguments below stay linear. */
  function Times(k: nat, t: real): real
  {
    if k == 0 then 0.0 else Times(k - 1, t) + t
  }

  lemma {:induction false} TimesIsProduct(k: nat, t: real)
    ensures Times(k, t) == (k as real) * t
  {
    if k > 0 {
      TimesIsProduct(k - 1, t);
      assert ((k - 1) as real) * t + t == (k as real) * t;
    }
  }

  /** Clipping entries that all lie above `t` removes `t` from each of them. */
  lemma {:induction false} SumClipAbove(s: seq<real>, t: real)
    requires forall i :: 0 <= i < |s| ==> s[i] > t
    ensures Sum(Clip(s, t)) == Sum(s) - Times(|s|, t)
    decreases |s|
  {
    if |s| > 0 {
      assert Clip(s, t)[..|s| - 1] == Clip(s[..|s| - 1], t);
      SumClipAbove(s[..|s| - 1], t);
    }
  }

  lemma {:induction false} SumClipBelow(s: seq<real>, t: real)
    requires forall i :: 0 <= i < |s| ==> s[i] <= t
    ensures Sum(Clip(s, t)) == 0.0
    decreases |s|
  {
    if |s| > 0 {
      assert Clip(s, t)[..|s| - 1] == Clip(s[..|s| - 1], t);
      SumClipBelow(s[..|s| - 1], t);
    }
  }

  lemma {:induction false} SumClipIsSumMap(y: seq<real>, t: real)
    ensures Sum(Clip(y, t)) == SumMap(v => Max(v - t, 0.0), y)
    decreases |y|
  {
    if |y| > 0 {
      assert Clip(y, t)[..|y| - 1] == Clip(y[..|y| - 1], t);
      SumClipIsSumMap(y[..|y| - 1], t);
    }
  }

  /** Clipping at `t`, where exactly the first `n` entries lie above `t`,
      keeps their excess over `t` and nothing else. */
  lemma SumClipSplit(s: seq<real>, t: real, n: nat)
    requires n <= |s|
    requires forall i :: 0 <= i < n ==> s[i] > t
    requires forall i :: n <= i < |s| ==> s[i] <= t
    ensures Sum(Clip(s, t)) == Sum(s[..n]) - Times(n, t)
  {
    assert s == s[..n] + s[n..];
    assert Clip(s, t) == Clip(s[..n], t) + Clip(s[n..], t);
    SumConcat(Clip(s[..n], t), Clip(s[n..], t));
    SumClipAbove(s[..n], t);
    SumClipBelow(s[n..], t);
  }

  lemma DivisionCancels(a: real, k: real)
    requires k > 0.0
    ensures (a / k) * k == a
  {
  }

  /** The candidate, counted once for every entry it was averaged over, is
      the prefix sum minus one. */
  lemma CandidateTimesCount(s: seq<real>, n: nat)
    requires 1 <= n <= |s|
    ensures Times(n, Candidate(s, n)) == Sum(s[..n]) - 1.0
  {
    TimesIsProduct(n, Candidate(s, n));
    DivisionCancels(Sum(s[..n]) - 1.0, n as real);
  }

  lemma SortedClipAtCutoff(s: seq<real>, t: real)
    requires |s| >= 1
    requires SortedDescending(s)
    requires t == Candidate(s, Cutoff(s, 1))
    ensures Sum(Clip(s, t)) == Sum(s[..Cutoff(s, 1)]) - Times(Cutoff(s, 1), t)
  {
    CountedAboveThreshold(s, Cutoff(s, 1), t);
    UncountedBelowThreshold(s, Cutoff(s, 1), t);
    SumClipSplit(s, t, Cutoff(s, 1));
  }

  /** On a descending sequence, clipping at the threshold leaves entries that
      sum to exactly one. */
  lemma SortedClipSumsToOne(s: seq<real>, t: real)
    requires |s| >= 1
    requires SortedDescending(s)
    requires t == Candidate(s, Cutoff(s, 1))
    ensures Sum(Clip(s, t)) == 1.0
  {
    SortedClipAtCutoff(s, t);
    CandidateTimesCount(s, Cutoff(s, 1));
  }

  /** Chen and Ye, Theorem: the clipped entries sum to exactly one. */
  lemma ProjectionSumsToOne(y: seq<real>)
    requires |y| >= 1
    ensures Sum(Clip(y, Threshold(y))) == 1.0
  {
    var s := SortDescending(y);
    var t := Threshold(y);
    SortedClipSumsToOne(s, t);
    SumClipIsSumMap(s, t);
    SumClipIsSumMap(y, t);
    SumMapPermutation(v => Max(v - t, 0.0), s, y);
  }

  /** Squared Euclidean distance. */
  function SquaredDistance(a: seq<real>, b: seq<real>): real
    requires |a| == |b|
  {
    if |a| == 0 then 0.0
    else
      var n := |a| - 1;
      SquaredDistance(a[..n], b[..n]) + (a[n] - b[n]) * (a[n] - b[n])
  }

  /** `c` times each entry, added up; equal to `c · Sum(a)` (see
      `SumScaledIsProduct`), but unfolding entry by entry. */
  function SumScaled(c: real, a: seq<real>): real
  {
    if |a| == 0 then 0.0 else SumScaled(c, a[..|a| - 1]) + c * a[|a| - 1]
  }

  lemma {:induction false} SumScaledIsProduct(c: real, a: seq<real>)
    ensures SumScaled(c, a) == c * Sum(a)
    decreases |a|
  {
    if |a| > 0 {
      SumScaledIsProduct(c, a[..|a| - 1]);
      assert c * Sum(a[..|a| - 1]) + c * a[|a| - 1] == c * (Sum(a[..|a| - 1]) + a[|a| - 1]);
    }
  }

  /** One coordinate of the optimality condition: moving from the clipped
      value `x` to any non-negative value `z` raises the squared distance
      from `y` by at least `c = 2·t` per unit of mass moved. */
  lemma ClipCoordinateOptimal(y: real, x: real, z: real, t: real, c: real)
    requires x == Max(y - t, 0.0)
    requires z >= 0.0
    requires c == 2.0 * t
    ensures (y - z) * (y - z) - (y - x) * (y - x) >= c * x - c * z
  {
    if y - t >= 0.0 {
      AboveCutCoordinate(y - z, t);
    } else {
      assert (y - z) * (y - z) - (y - x) * (y - x) - 2.0 * t * (x - z)
          == z * (z + 2.0 * (t - y));
      assert z * (z + 2.0 * (t - y)) >= 0.0;
    }
  }

  /** For a kept coordinate (`x = y - t`), with `d = y - z`. */
  lemma AboveCutCoordinate(d: real, t: real)
    ensures d * d - t * t >= 2.0 * t * (d - t)
  {
    assert d * d - t * t - 2.0 * t * (d - t) == (d - t) * (d - t);
  }

  /** Peels the last coordinate off the distances and sums of
      `ClipOptimalSum`. */
  lemma ClipOptimalUnfold(y: seq<real>, z: seq<real>, t: real, c: real)
    requires |z| == |y| >= 1
    ensures SquaredDistance(y, z) == SquaredDistance(y[..|y| - 1], z[..|y| - 1])
                                     + (y[|y| - 1] - z[|y| - 1]) * (y[|y| - 1] - z[|y| - 1])
    ensures SquaredDistance(y, Clip(y, t)) == SquaredDistance(y[..|y| - 1], Clip(y[..|y| - 1], t))
                                     + (y[|y| - 1] - Clip(y, t)[|y| - 1]) * (y[|y| - 1] - Clip(y, t)[|y| - 1])
    ensures SumScaled(c, Clip(y, t)) == SumScaled(c, Clip(y[..|y| - 1], t)) + c * Clip(y, t)[|y| - 1]
    ensures SumScaled(c, z) == SumScaled(c, z[..|y| - 1]) + c * z[|y| - 1]
  {
    assert Clip(y, t)[..|y| - 1] == Clip(y[..|y| - 1], t);
  }

  /** The inductive step of `ClipOptimalSum`: the bound on the prefix and
      the bound on the last coordinate give the bound on the whole. */
  lemma ClipOptimalStep(y: seq<real>, z: seq<real>, t: real, c: real)
    requires |z| == |y| >= 1
    requires z[|y| - 1] >= 0.0
    requires c == 2.0 * t
    requires SquaredDistance(y[..|y| - 1], z[..|y| - 1]) - SquaredDistance(y[..|y| - 1], Clip(y[..|y| - 1], t))
             >= SumScaled(c, Clip(y[..|y| - 1], t)) - SumScaled(c, z[..|y| - 1])
    ensures SquaredDistance(y, z) - SquaredDistance(y, Clip(y, t))
            >= SumScaled(c, Clip(y, t)) - SumScaled(c, z)
  {
    LastCoordinateOptimal(y, z, t, c);
    ClipOptimalUnfold(y, z, t, c);
  }

  /** `ClipCoordinateOptimal` at the last coordinate of a vector. */
  lemma LastCoordinateOptimal(y: seq<real>, z: seq<real>, t: real, c: real)
    requires |z| == |y| >= 1
    requires z[|y| - 1] >= 0.0
    requires c == 2.0 * t
    ensures var n := |y| - 1;
      (y[n] - z[n]) * (y[n] - z[n]) - (y[n] - Clip(y, t)[n]) * (y[n] - Clip(y, t)[n]) >= c * Clip(y, t)[n] - c * z[n]
  {
    ClipCoordinateOptimal(y[|y| - 1], Clip(y, t)[|y| - 1], z[|y| - 1], t, c);
  }

  /** Summed over all coordinates: any non-negative `z` is farther from `y`
      than the clipped vector is, by at least `c = 2·t` times the mass the
      clipped vector has in excess of `z`. */
  lemma {:induction false} ClipOptimalSum(y: seq<real>, z: seq<real>, t: real, c: real)
    requires |z| == |y|
    requires forall i :: 0 <= i < |z| ==> z[i] >= 0.0
    requires c == 2.0 * t
    ensures SquaredDistance(y, z) - SquaredDistance(y, Clip(y, t))
            >= SumScaled(c, Clip(y, t)) - SumScaled(c, z)
    decreases |y|
  {
    if |y| > 0 {
      ClipOptimalSum(y[..|y| - 1], z[..|y| - 1], t, c);
      ClipOptimalStep(y, z, t, c);
    }
  }

  lemma EqualMassEqualScaled(c: real, x: seq<real>, z: seq<real>)
    requires Sum(x) == Sum(z)
    ensures SumScaled(c, x) == SumScaled(c, z)
  {
    SumScaledIsProduct(c, x);
    SumScaledIsProduct(c, z);
  }

  /** The projection is the point of the simplex nearest to the input. */
  lemma ProjectionIsNearest(y: seq<real>, z: seq<real>)
    requires |y| >= 1
    requires |z| == |y|
    requires OnSimplex(z)
    ensures SquaredDistance(y, Project(y)) <= SquaredDistance(y, z)
  {
    ProjectionSumsToOne(y);
    ClipOptimalSum(y, z, Threshold(y), 2.0 * Threshold(y));
    EqualMassEqualScaled(2.0 * Threshold(y), Clip(y, Threshold(y)), z);
  }

  /** A non-negative `t` counted `k ≥ 1` times is at least `t`. */
  lemma {:induction false} TimesAtLeastOnce(k: nat, t: real)
    requires k >= 1
    requires t >= 0.0
    ensures Times(k, t) >= t
  {
    if k > 1 {
      TimesAtLeastOnce(k - 1, t);
    }
  }

  lemma TimesZero(k: nat, t: real)
    requires k >= 1
    requires Times(k, t) == 0.0
    ensures t == 0.0
  {
    TimesIsProduct(k, t);
  }

  /** Every prefix of a probability vector carries at most all of its mass. */
  lemma PrefixSumAtMostOne(s: seq<real>, n: nat)
    requires n <= |s|
    requires OnSimplex(s)
    ensures Sum(s[..n]) <= 1.0
    ensures n == |s| ==> Sum(s[..n]) == 1.0
  {
    assert s == s[..n] + s[n..];
    SumConcat(s[..n], s[n..]);
    SumNonNegative(s[n..]);
  }

  /** A shift `t` that removes exactly the excess mass `Sum(s[..n]) - 1` of
      a prefix of a probability vector, and that reaches the next entry
      when there is one, is zero. */
  lemma ShiftOnSimplexIsZero(s: seq<real>, n: nat, t: real)
    requires 1 <= n <= |s|
    requires OnSimplex(s)
    requires Times(n, t) == Sum(s[..n]) - 1.0
    requires n < |s| ==> t >= s[n]
    ensures t == 0.0
  {
    PrefixSumAtMostOne(s, n);
    if n < |s| {
      TimesAtLeastOnce(n, t);
    }
    TimesZero(n, t);
  }

  /** On a descending probability vector the threshold is zero. */
  lemma SortedSimplexThresholdIsZero(s: seq<real>, t: real)
    requires |s| >= 1
    requires SortedDescending(s)
    requires OnSimplex(s)
    requires t == Candidate(s, Cutoff(s, 1))
    ensures t == 0.0
  {
    CandidateTimesCount(s, Cutoff(s, 1));
    ShiftOnSimplexIsZero(s, Cutoff(s, 1), t);
  }

  /** A vector already on the simplex is its own projection. */
  lemma ProjectionFixesSimplex(y: seq<real>)
    requires OnSimplex(y)
    ensures Project(y) == y
  {
    if |y| > 0 {
      ProjectionFixesNonEmpty(y);
    }
  }

  /** Sorting keeps the entries non-negative. */
  lemma SortedNonNegative(y: seq<real>)
    requires forall i :: 0 <= i < |y| ==> y[i] >= 0.0
    ensures forall i :: 0 <= i < |SortDescending(y)| ==> SortDescending(y)[i] >= 0.0
  {
    var s := SortDescending(y);
    forall i | 0 <= i < |s|
      ensures s[i] >= 0.0
    {
      assert s[i] in multiset(y);
    }
  }

  lemma ClipAtZero(y: seq<real>)
    requires forall i :: 0 <= i < |y| ==> y[i] >= 0.0
    ensures Clip(y, 0.0) == y
  {
  }

  lemma ProjectionFixesNonEmpty(y: seq<real>)
    requires |y| >= 1
    requires OnSimplex(y)
    ensures Project(y) == y
  {
    SortedNonNegative(y);
    SumPermutation(SortDescending(y), y);
    SortedSimplexThresholdIsZero(SortDescending(y), Threshold(y));
    ClipAtZero(y);
  }
}

=== FILE: vectors.dfy ===
/** Scalar helpers and the small array utilities of the rule: `Math.max`,
    `Math.min`, `dotmultiplication`, `indexOfMin` and `indexofMax`, plus the
    first-maximum scan that `calculateL2AParameters` performs with `reduce`. */
module Vectors {

  function Max(a: real, b: real): real
  {
    if a >= b then a else b
  }

  function Min(a: real, b: real): real
  {
    if a <= b then a else b
  }

  /** `Math.abs`. */
  function Abs(x: real): (a: real)
    ensures a >= 0.0
    ensures a == x || a == -x
  {
    if x >= 0.0 then x else -x
  }

  /** Left-to-right sum, the accumulation that `tmpsum` and `sumdot` perform. */
  function Sum(a: seq<real>): real
  {
    if |a| == 0 then 0.0 else Sum(a[..|a| - 1]) + a[|a| - 1]
  }

  /** Sum of `f` applied to every entry. */
  function SumMap(f: real -> real, a: seq<real>): real
  {
    if |a| == 0 then 0.0 else SumMap(f, a[..|a| - 1]) + f(a[|a| - 1])
  }

  /** Sum of the pairwise products of two sequences of equal length. */
  function DotSum(a: seq<real>, b: seq<real>): real
    requires |a| == |b|
  {
    if |a| == 0 then 0.0 else DotSum(a[..|a| - 1], b[..|b| - 1]) + a[|a| - 1] * b[|b| - 1]
  }

  /** `dotmultiplication`: the dot product, or the sentinel -1 when the lengths differ. */
  function Dot(a: seq<real>, b: seq<real>): real
  {
    if |a| != |b| then -1.0 else DotSum(a, b)
  }

  /** `indexOfMin`: -1 for an empty array, otherwise an index of the minimum;
      the scan uses `<=`, so the LAST index attaining the minimum wins. */
  function IndexOfMin(a: seq<real>): (k: int)
    ensures |a| == 0 ==> k == -1
    ensures |a| > 0 ==> 0 <= k < |a|
    ensures |a| > 0 ==> forall j :: 0 <= j < |a| ==> a[k] <= a[j]
    ensures |a| > 0 ==> forall j :: k < j < |a| ==> a[k] < a[j]
  {
    if |a| == 0 then -1
    else if |a| == 1 then 0
    else
      var k := IndexOfMin(a[..|a| - 1]);
      if a[|a| - 1] <= a[k] then |a| - 1 else k
  }

  /** `indexofMax`: -1 for an empty array, otherwise an index of the maximum;
      the scan uses `>=`, so the LAST index attaining the maximum wins. */
  function IndexOfMax(a: seq<real>): (k: int)
    ensures |a| == 0 ==> k == -1
    ensures |a| > 0 ==> 0 <= k < |a|
    ensures |a| > 0 ==> forall j :: 0 <= j < |a| ==> a[j] <= a[k]
    ensures |a| > 0 ==> forall j :: k < j < |a| ==> a[j] < a[k]
  {
    if |a| == 0 then -1
    else if |a| == 1 then 0
    else
      var k := IndexOfMax(a[..|a| - 1]);
      if a[|a| - 1] >= a[k] then |a| - 1 else k
  }

  /** The contract of `IndexOfMax` pins its result down: an index holding
      the maximum with only smaller entries after it is the one returned. */
  lemma IndexOfMaxUnique(a: seq<real>, k: nat)
    requires k < |a|
    requires forall j :: 0 <= j < |a| ==> a[j] <= a[k]
    requires forall j :: k < j < |a| ==> a[j] < a[k]
    ensures IndexOfMax(a) == k
  {
    assert a[IndexOfMax(a)] == a[k];
  }

  /** Likewise for `IndexOfMin`. */
  lemma IndexOfMinUnique(a: seq<real>, k: nat)
    requires k < |a|
    requires forall j :: 0 <= j < |a| ==> a[k] <= a[j]
    requires forall j :: k < j < |a| ==> a[k] < a[j]
    ensures IndexOfMin(a) == k
  {
    assert a[IndexOfMin(a)] == a[k];
  }

  /** The `reduce` of `calculateL2AParameters`: starting from index 0, an entry
      replaces the running best only when STRICTLY greater, so the FIRST index
      attaining the maximum wins, and 0 is returned for an empty array. */
  function FirstIndexOfMax(a: seq<real>): (k: nat)
    ensures |a| == 0 ==> k == 0
    ensures |a| > 0 ==> k < |a|
    ensures |a| > 0 ==> forall j :: 0 <= j < |a| ==> a[j] <= a[k]
    ensures forall j :: 0 <= j < k ==> a[j] < a[k]
  {
    if |a| <= 1 then 0
    else
      var k := FirstIndexOfMax(a[..|a| - 1]);
      if a[|a| - 1] > a[k] then |a| - 1 else k
  }

  lemma {:induction false} SumConcat(a: seq<real>, b: seq<real>)
    ensures Sum(a + b) == Sum(a) + Sum(b)
    decreases |b|
  {
    if |b| == 0 {
      assert a + b == a;
    } else {
      assert (a + b)[..|a + b| - 1] == a + b[..|b| - 1];
      SumConcat(a, b[..|b| - 1]);
    }
  }

  lemma {:induction false} SumMapConcat(f: real -> real, a: seq<real>, b: seq<real>)
    ensures SumMap(f, a + b) == SumMap(f, a) + SumMap(f, b)
    decreases |b|
  {
    if |b| == 0 {
      assert a + b == a;
    } else {
      assert (a + b)[..|a + b| - 1] == a + b[..|b| - 1];
      SumMapConcat(f, a, b[..|b| - 1]);
    }
  }

  /** A sum over a sequence does not depend on the order of its entries. */
  lemma {:induction false} SumMapPermutation(f: real -> real, a: seq<real>, b: seq<real>)
    requires multiset(a) == multiset(b)
    ensures SumMap(f, a) == SumMap(f, b)
    decreases |a|
  {
    if |a| == 0 {
      assert |b| == |multiset(b)| == 0;
    } else {
      var x := a[|a| - 1];
      var a' := a[..|a| - 1];
      assert a == a' + [x];
      assert x in multiset(b);
      var i :| 0 <= i < |b| && b[i] == x;
      var b' := b[..i] + b[i + 1..];
      assert b == b[..i] + [x] + b[i + 1..];
      assert multiset(b') == multiset(b) - multiset{x};
      assert multiset(a') == multiset(a) - multiset{x};
      SumMapPermutation(f, a', b');
      SumMapConcat(f, b[..i] + [x], b[i + 1..]);
      SumMapConcat(f, b[..i], [x]);
      SumMapConcat(f, b[..i], b[i + 1..]);
      assert [x][..0] == [];
    }
  }

  lemma {:induction false} SumIsSumMap(a: seq<real>)
    ensures Sum(a) == SumMap(x => x, a)
    decreases |a|
  {
    if |a| > 0 {
      SumIsSumMap(a[..|a| - 1]);
    }
  }

  /** Reordering the entries does not change their sum. */
  lemma SumPermutation(a: seq<real>, b: seq<real>)
    requires multiset(a) == multiset(b)
    ensures Sum(a) == Sum(b)
  {
    SumIsSumMap(a);
    SumIsSumMap(b);
    SumMapPermutation(x => x, a, b);
  }

  lemma {:induction false} SumNonNegative(a: seq<real>)
    requires forall i :: 0 <= i < |a| ==> a[i] >= 0.0
    ensures Sum(a) >= 0.0
    decreases |a|
  {
    if |a| > 0 {
      SumNonNegative(a[..|a| - 1]);
    }
  }

  /** Adding one more weighted term keeps the running lower bound. */
  lemma StepAbove(lo: real, total: real, acc: real, w: real, x: real, total': real, acc': real)
    requires lo * total <= acc
    requires w >= 0.0 && lo <= x
    requires total' == total + w && acc' == acc + w * x
    ensures lo * total' <= acc'
  {
    assert w * (x - lo) >= 0.0;
    assert lo * total' == lo * total + lo * w;
  }

  /** Adding one more weighted term keeps the running upper bound. */
  lemma StepBelow(hi: real, total: real, acc: real, w: real, x: real, total': real, acc': real)
    requires acc <= hi * total
    requires w >= 0.0 && x <= hi
    requires total' == total + w && acc' == acc + w * x
    ensures acc' <= hi * total'
  {
    assert w * (hi - x) >= 0.0;
    assert hi * total' == hi * total + hi * w;
  }

  /** A weighted sum with non-negative weights is at least the smallest
      value scaled by the total weight. */
  lemma {:induction false} DotSumAbove(w: seq<real>, r: seq<real>, lo: real)
    requires |w| == |r|
    requires forall i :: 0 <= i < |w| ==> w[i] >= 0.0
    requires forall i :: 0 <= i < |r| ==> lo <= r[i]
    ensures lo * Sum(w) <= DotSum(w, r)
    decreases |w|
  {
    if |w| > 0 {
      var n := |w| - 1;
      DotSumAbove(w[..n], r[..n], lo);
      StepAbove(lo, Sum(w[..n]), DotSum(w[..n], r[..n]), w[n], r[n], Sum(w), DotSum(w, r));
    }
  }

  /** A weighted sum with non-negative weights is at most the largest value
      scaled by the total weight. */
  lemma {:induction false} DotSumBelow(w: seq<real>, r: seq<real>, hi: real)
    requires |w| == |r|
    requires forall i :: 0 <= i < |w| ==> w[i] >= 0.0
    requires forall i :: 0 <= i < |r| ==> r[i] <= hi
    ensures DotSum(w, r) <= hi * Sum(w)
    decreases |w|
  {
    if |w| > 0 {
      var n := |w| - 1;
      DotSumBelow(w[..n], r[..n], hi);
      StepBelow(hi, Sum(w[..n]), DotSum(w[..n], r[..n]), w[n], r[n], Sum(w), DotSum(w, r));
    }
  }

  /** With weights on the probability simplex, `dotmultiplication(w, rates)`
      is a convex combination of the rates: it lies between the smallest and
      the largest rate. */
  lemma DotOfDistributionWithinRange(w: seq<real>, r: seq<real>, lo: real, hi: real)
    requires |w| == |r|
    requires forall i :: 0 <= i < |w| ==> w[i] >= 0.0
    requires Sum(w) == 1.0
    requires forall i :: 0 <= i < |r| ==> lo <= r[i] <= hi
    ensures lo <= Dot(w, r) <= hi
  {
    DotSumAbove(w, r, lo);
    DotSumBelow(w, r, hi);
  }
}

=== FILE: wrappers.dfy ===
/** Values the rule stores as `NaN` (or leaves undefined) until they are known. */
module Wrappers {

  /** `None` stands for a JavaScript field that is `NaN` or `undefined`. */
  datatype Option<+T> = None | Some(value: T)
}
